=== FILE: README.md ===
# fin-trust core, modelled in Dafny

fin-trust is a Next.js demo of a peer-to-peer payment app. It has a fraud
engine, a community credit score and a wallet. Its business logic lives in
in-memory mock services under `src/lib` and in a few pure helpers inside
page components. This project models that logic as immutable datatypes held
in sequence-based stores, with pure state-transition functions that return
the new store. Every source of nondeterminism is an explicit input:
`Math.random()` draws, clock reads and generated ids.

| module | file | models |
|---|---|---|
| `Wrappers` | wrappers.dfy | `Option` and `Result` |
| `Seqs` | seqs.dfy | order-preserving `filter` and `find`, with their laws |
| `Numeric` | numeric.dfy | `Math.round(n / d)` as exact round-half-up integer division |
| `Types` | types.dfy | the records of `src/types/index.ts` |
| `FraudDetection` | fraud_detection.dfy | `src/lib/fraudDetection.ts` |
| `CreditScoring` | credit_score.dfy | `src/lib/creditScore.ts` |
| `ScoreUtils` | score_utils.dfy | `calculateScore`, `getScoreColor` and `getScoreLabel` of `src/lib/utils.ts` |
| `WalletLedger` | wallet.dfy | `src/lib/wallet.ts` |
| `Auth` | auth.dfy | the user list and current user of `src/lib/auth.ts` |
| `RegisterPage` | register_page.dfy | the masks, validation and wizard of `src/app/register/page.tsx` |
| `TransferPage` | transfer_page.dfy | the sanitiser, steps and fraud check of `src/app/transfer/page.tsx` |
| `CommunityPage` | community_page.dfy | the search and filter of `src/app/community/page.tsx` |

Conventions:

- Money is in integer cents. The demo's R$ 1000 opening balance is `100000`.
- Fraud-rule weights are integer hundredths, so `0.3` is `30`.
- `Math.round(n / d)` with `d > 0` is `RoundDiv(n, d) = (2n + d) / (2d)`. This
  is exact for every integer `n`. `Numeric.RoundDivReal` proves it equal to
  `floor(n / d + 1/2)` over the reals, which is the source's rounding applied
  to an exact decimal.
- Where the source multiplies floating-point numbers by decimal weights
  (`0.35`, `0.4`, …), the `…MatchesDecimal` lemmas prove that the integer
  formula equals the source's expression evaluated over exact decimals.

Two facts about the code that a reader might not expect:

- `analyzeTransaction` never reaches 80, the score at which it would
  recommend blocking. `FraudDetection.Analyze` proves the score is at most 79.
- `transfer`, `deposit` and `withdraw` in `wallet.ts` have no check for
  non-positive amounts, and neither does the model.

## Model

| member | source | states |
|---|---|---|
| FraudDetection.AmountFactor | src/lib/fraudDetection.ts:60-78 | 'Valor Alto' exactly above R$ 10.000, 'Valor Baixo' exactly at or below R$ 5.000, 'Valor Moderado' in between; the score is 80 exactly for 'Valor Alto', 10 exactly for 'Valor Baixo' and otherwise 40, with the rule's description |
| FraudDetection.LocationFactor | src/lib/fraudDetection.ts:103-119 | an unusual location gives 'Localização Atípica' with 70, and only then; otherwise 'Localização Conhecida' with 15 |
| FraudDetection.DeviceFactor | src/lib/fraudDetection.ts:122-137 | a new device gives 'Dispositivo Novo' with 50, and only then; otherwise 'Dispositivo Conhecido' with 10 |
| FraudDetection.PatternFactor | src/lib/fraudDetection.ts:139-153 | an unusual pattern gives 'Padrão Atípico' with 45, and only then; otherwise 'Padrão Normal' with 20 |
| FraudDetection.TimeFactor | src/lib/fraudDetection.ts:81-100 | hours 0..6 give 'Horário Suspeito', exactly 7, 8, 22 and 23 give 'Horário Atípico', the rest 'Horário Normal'; the score is 60 exactly for 'Horário Suspeito', 5 exactly for 'Horário Normal' and otherwise 30 |
| FraudDetection.FactorBandsMonotone | src/lib/fraudDetection.ts:60-100 | a larger amount never scores lower; within 0..21 a later hour never scores higher |
| FraudDetection.RiskFactors | src/lib/fraudDetection.ts:56-156 | the list starts with the amount factor and the time factor and ends with the pattern factor; its length is 3 plus one for a location plus one for device information |
| FraudDetection.RiskFactorsPerRule | src/lib/fraudDetection.ts:56-156 | exactly one amount, one time and one pattern factor; a location factor iff the transaction has a location; a device factor iff it has device information |
| FraudDetection.Weight | src/lib/fraudDetection.ts:158-182 | every name, including an unknown one, weighs between 0.05 and 0.30 |
| FraudDetection.WeightKeyedOnText | src/lib/fraudDetection.ts:160-177 | the table is looked up by the name's text: two names with the same text weigh the same, so an unlisted name carrying a listed text weighs what the listed name weighs |
| FraudDetection.RiskScore | src/lib/fraudDetection.ts:158-185 | 0 for the empty list; otherwise the score is the weighted average rounded to the nearest integer (within half a unit of it, scaled by the total weight) and lies between the smallest and the largest factor score |
| FraudDetection.LevelAndRecommendationMonotone | src/lib/fraudDetection.ts:187-201 | a higher risk score never gets a lower level or a milder recommendation |
| FraudDetection.RiskLevel | src/lib/fraudDetection.ts:187-192 | critical exactly from 80, high exactly in 60..79, medium exactly in 30..59, low exactly below 30 |
| FraudDetection.RecommendationFor | src/lib/fraudDetection.ts:194-201 | block exactly from 80, review exactly in 50..79, approve exactly below 50; the factor list plays no part |
| FraudDetection.RecommendationAgreesWithLevel | src/lib/fraudDetection.ts:187-201 | block iff the level is critical; review only at medium or high; a low level always means approve |
| FraudDetection.GeneratedWeights | src/lib/fraudDetection.ts:56-185 | for generated factors the total weight is between 0 and 1.10, and the weighted sum lies between 5 times the total and 80 times the total minus 3.75 |
| FraudDetection.Analyze | src/lib/fraudDetection.ts:7-27 | the score is the weighted score of the analysis's own factors and lies in 5..79, so the analysis is never critical and never recommends block; level and recommendation follow the breakpoint tables |
| FraudDetection.CreateAlert | src/lib/fraudDetection.ts:37-46 | appends one alert carrying the generated id and the current time; the user, transaction, type, severity, description, resolved flag and resolution time are the caller's |
| FraudDetection.DetectAnomalies | src/lib/fraudDetection.ts:29-35 | returns only that user's alerts, and all of them |
| FraudDetection.CreateThenDetect | src/lib/fraudDetection.ts:29-46 | after creating an alert, the owner's alert list is the old one with the new alert last; other users' lists are unchanged |
| FraudDetection.ResolveAlert | src/lib/fraudDetection.ts:48-54 | only the first alert with that id becomes resolved, stamped with the time; an unknown id changes nothing; ids, owners and resolved flags are kept |
| FraudDetection.FlaggedMembers | src/lib/fraudDetection.ts:227-237 | every listed transaction is one whose recommendation is not approve, and every such transaction is listed |
| FraudDetection.FlaggedInOrder | src/lib/fraudDetection.ts:227-237 | the list is the order-preserving sublist: its k-th entry is the transaction at the k-th position that is not approved, the positions strictly increase, and a position is among them iff its analysis is not approve |
| FraudDetection.TotalScoreBounds | src/lib/fraudDetection.ts:229-233 | with every score in 5..79, n analyses total between 5n and 79n |
| FraudDetection.BatchReportMeaning | src/lib/fraudDetection.ts:219-247 | a transaction is listed iff its own analysis recommends review or block; the count is the list's length, at most the batch size |
| FraudDetection.Summarize | src/lib/fraudDetection.ts:227-247 | the loop computes exactly the batch report: flagged list, count, total and summed score |
| FraudDetection.AnalyzeBatch | src/lib/fraudDetection.ts:219-247 | `analyzeBatchTransactions`: total = batch size, suspicious count = list length ≤ batch size, summed score between 5 and 79 per transaction |
| FraudDetection.AverageRiskScore | src/lib/fraudDetection.ts:244 | 0 for an empty batch; otherwise the value that, times the batch size, gives the summed score |
| FraudDetection.BatchAverage | src/lib/fraudDetection.ts:219-247 | the batch's average risk score is 0 for an empty batch and between 5 and 79 otherwise |
| FraudDetection.SuspiciousMeansReview | src/lib/fraudDetection.ts:7-27 | since nothing is blocked, a transaction is suspicious iff it is sent to review, iff its score is at least 50 |
| CreditScoring.TraditionalScore | src/lib/creditScore.ts:115-127 | the result is the integer nearest to 0.35·payment history + 0.30·utilisation + 0.35·credit history, with ties rounded up |
| CreditScoring.TraditionalScoreMatchesDecimal | src/lib/creditScore.ts:115-127 | equals `Math.round` of the source's decimal expression |
| CreditScoring.CommunityScore | src/lib/creditScore.ts:128-140 | with no inbound connections, the nearest integer to 0.4 community trust + 0.3 social connections (a half rounds up); the inbound mean is stated in CommunityScoreMatchesDecimal |
| CreditScoring.Inbound | src/lib/creditScore.ts:129-130 | exactly the connections whose target is the user |
| CreditScoring.CommunityScoreMatchesDecimal | src/lib/creditScore.ts:129-140 | equals round(0.4·trust + 0.3·social + 0.3·mean inbound trust), where the mean is 0 without inbound connections |
| CreditScoring.BehaviorScore | src/lib/creditScore.ts:142-147 | the nearest integer to 0.6·transaction patterns + 0.4·payment history |
| CreditScoring.BehaviorScoreMatchesDecimal | src/lib/creditScore.ts:142-147 | equals `Math.round` of the source's decimal expression |
| CreditScoring.FinalScore | src/lib/creditScore.ts:149-161 | the nearest integer to 0.4·traditional + 0.35·community + 0.25·behaviour, over the already-rounded sub-scores |
| CreditScoring.FinalScoreMatchesDecimal | src/lib/creditScore.ts:149-161 | equals `Math.round` of the source's decimal expression |
| CreditScoring.SubScoresBetween | src/lib/creditScore.ts:115-161 | each weighted score lies between the smallest and the largest of its inputs |
| CreditScoring.CommunityScoreRange | src/lib/creditScore.ts:129-140 | factors and trust levels in [0, 100] give a community score in [0, 100] |
| CreditScoring.ScoresInRange | src/lib/creditScore.ts:115-161 | factors and trust levels in [0, 100] give all four scores in [0, 100] |
| CreditScoring.InitialScore | src/lib/creditScore.ts:83-113 | a new record carries the seed's id and factors, the time, and the four scores its factors give |
| CreditScoring.GetCreditScore | src/lib/creditScore.ts:8-19 | an existing record is returned unchanged; otherwise an up-to-date record is appended |
| CreditScoring.GetCreditScoreIdempotent | src/lib/creditScore.ts:8-19 | a second call returns the same record and leaves the store as it is |
| CreditScoring.Nudged | src/lib/creditScore.ts:27-31 | a completed transfer raises payment history by 5 and transaction patterns by 3, each capped at 100; any other event leaves the factors alone |
| CreditScoring.NudgedInRange | src/lib/creditScore.ts:27-31 | nudging keeps factors in [0, 100] and never lowers one |
| CreditScoring.UpdateScore | src/lib/creditScore.ts:21-41 | the user's record gets nudged factors and all four scores recomputed; no other record and no connection changes |
| CreditScoring.UpdateScoreConsistent | src/lib/creditScore.ts:21-41 | updating a user leaves every record up to date except possibly a stale one that is not this user's |
| CreditScoring.AddCommunityConnection | src/lib/creditScore.ts:43-64 | appends one connection with the given trust level, endorsement count 0 and not verified; afterwards both users have a record at their first position that keeps the id and factors of the record `getCreditScore` gives (the event changes no factor), stamped now and up to date with the new connection list; the store grows by at most two records and every other user's record is unchanged |
| CreditScoring.AddCommunityConnectionConsistent | src/lib/creditScore.ts:43-64 | in a store where every score is up to date, so is the store after adding a connection |
| CreditScoring.EndorseUser | src/lib/creditScore.ts:66-81 | the connections are endorsed as EndorseConnections says; the endorsed user then has a record at their first position that keeps the id and factors of the record `getCreditScore` gives, stamped now and up to date; every other user's record is unchanged |
| CreditScoring.EndorseConnections | src/lib/creditScore.ts:66-77 | only the first from→to connection changes: endorsements plus one and trust min(trust + 5, 100); with no match nothing changes |
| CreditScoring.EndorseUserConsistent | src/lib/creditScore.ts:66-81 | endorsing keeps every stored score up to date |
| CreditScoring.EndorseRaisesCommunity | src/lib/creditScore.ts:66-81 | with trust levels at most 100, endorsing never lowers the target's community score |
| CreditScoring.EndorseUserRaisesStoredScore | src/lib/creditScore.ts:66-81 | in a consistent store, the target's stored community score never drops after an endorsement |
| ScoreUtils.CalculateScore | src/lib/utils.ts:62-78 | the result lies between the smallest and the largest of the three inputs |
| ScoreUtils.CalculateScoreIsFinalScore | src/lib/utils.ts:62-78 | the utility gives the same number as the credit service's final score |
| ScoreUtils.CalculateScoreMatchesDecimal | src/lib/utils.ts:62-78 | equals `Math.round` of the source's decimal expression |
| ScoreUtils.CalculateScoreInRange | src/lib/utils.ts:62-78 | inputs in [0, 100] give an output in [0, 100] |
| ScoreUtils.ScoreColor | src/lib/utils.ts:80-85 | the colour is the one that goes with the score's label; red exactly below 400 |
| ScoreUtils.ScoreLabel | src/lib/utils.ts:87-92 | one of the four labels; 'Excelente' exactly from 800, 'Bom' exactly in 600..799, 'Regular' exactly in 400..599, 'Baixo' exactly below 400 |
| ScoreUtils.ColorFollowsLabel | src/lib/utils.ts:80-92 | two scores share a colour iff they share a label |
| ScoreUtils.BandsMonotone | src/lib/utils.ts:87-92 | a higher score never gets a lower label |
| ScoreUtils.SmallScoreIsLowest | src/lib/utils.ts:80-92 | any score up to 100 is 'Baixo' and red |
| ScoreUtils.FinalScoreAlwaysLowest | src/lib/utils.ts:80-92 | every final score the credit service computes from in-range data is 'Baixo' and red |
| WalletLedger.GetWallet | src/lib/wallet.ts:8-27 | an existing wallet is returned as is; otherwise a wallet with R$ 1000, 'BRL' and active is appended |
| WalletLedger.GetWalletIdempotent | src/lib/wallet.ts:8-27 | a second call returns the same wallet and changes nothing |
| WalletLedger.GetWalletTotal | src/lib/wallet.ts:8-27 | the money in the system grows by R$ 1000 exactly when a wallet is created |
| WalletLedger.FraudScore | src/lib/wallet.ts:142-158 | the score is in [0, 85) and exceeds 80 iff the amount is above R$ 10.000, the hour is before 6 or after 22, and the random term is above 15 |
| WalletLedger.DoTransfer | src/lib/wallet.ts:39-88 | insufficient balance iff the sender has less than the amount; the fraud failure iff the balance suffices and the score is above 80; a failure changes only the wallets the lookups created; a success appends the completed transfer record with its fraud score |
| WalletLedger.MoveEffects | src/lib/wallet.ts:57-58 | the sender loses and the receiver gains exactly the amount, other wallets are unchanged, a self-transfer is a no-op, and the total is preserved |
| WalletLedger.TransferMovesAmount | src/lib/wallet.ts:39-88 | a successful transfer preserves the total and changes the two balances by exactly the amount |
| WalletLedger.BalanceCheckedFirst | src/lib/wallet.ts:43-54 | an insufficient balance fails the same way whatever the random term and the hour |
| WalletLedger.FraudGateNeedsLargeNightTransfer | src/lib/wallet.ts:51-54 | the fraud gate fires only for amounts above R$ 10.000 at night |
| WalletLedger.Deposit | src/lib/wallet.ts:90-112 | credits exactly the amount, touches no other wallet, and appends a completed deposit from 'system' |
| WalletLedger.Withdraw | src/lib/wallet.ts:114-140 | fails iff the balance is below the amount, then keeping only a created wallet; otherwise debits exactly the amount and appends a completed withdrawal to 'system' |
| WalletLedger.TransferSound | src/lib/wallet.ts:39-88 | with a non-negative amount, one wallet per user and no negative balance are preserved |
| WalletLedger.DepositSound | src/lib/wallet.ts:90-112 | the same for deposits |
| WalletLedger.WithdrawSound | src/lib/wallet.ts:114-140 | the same for withdrawals |
| WalletLedger.SortNewestFirst | src/lib/wallet.ts:35 | the result is ordered newest first and is a permutation of the input |
| WalletLedger.GetTransactions | src/lib/wallet.ts:29-37 | transactions the user sent or received, newest first, as a sub-multiset of theirs; exactly as many as `slice(0, limit)` keeps of the user's n (min(limit, n) for a non-negative limit, n + limit floored at 0 for a negative one), and none left out is newer than any kept |
| WalletLedger.RecentTransactions | src/lib/wallet.ts:29 | the call with the default limit of 10 that the dashboard makes: the newest min(10, n) of the user's transactions |
| WalletLedger.GetTransactionsComplete | src/lib/wallet.ts:29-37 | with a limit no smaller than the log, the history holds every one of the user's transactions |
| Auth.FindByEmail | src/lib/auth.ts:12 | the first user with that email, or none iff no user has it |
| Auth.Login | src/lib/auth.ts:8-30 | unknown email, biometrics not configured and 2FA code required are rejected in that order; a login that passes all three checks succeeds and logs in the first user with that email; a failure changes nothing |
| Auth.LoginIgnoresPassword | src/lib/auth.ts:8-30 | the outcome does not depend on the password |
| Auth.LoginValid | src/lib/auth.ts:8-30 | after a successful login, the current user is a stored user with the given email |
| Auth.Logout | src/lib/auth.ts:61-64 | nobody is logged in and the users are unchanged |
| Auth.LoginAfterLogout | src/lib/auth.ts:8-30 | logging out forgets only the current user: a later login has the same outcome, and on success the same state, as without the logout |
| Auth.Register | src/lib/auth.ts:32-59 | rejected iff some user has the same email or the same CPF, leaving the state alone; otherwise appends exactly the user built from the request and the generated id: no avatar, created and updated now, unverified, 2FA off and biometrics iff data was sent; and logs them in |
| Auth.RegisterAllKeepsUnique | src/lib/auth.ts:32-59 | after any sequence of registrations, no two users share an email or a CPF |
| Auth.EnableBiometric | src/lib/auth.ts:87-97 | fails iff nobody is logged in; otherwise sets only the current user's biometric flag and stamps it |
| Auth.EnableTwoFactor | src/lib/auth.ts:99-114 | fails iff nobody is logged in; otherwise sets only the current user's 2FA flag and returns the fixed secret |
| Auth.TwoFactorGuardsLogin | src/lib/auth.ts:17-24 | once 2FA is on, a login to that account without a code fails |
| RegisterPage.FormatCPF | src/app/register/page.tsx:43-46 | under 11 digits, the bare digits; otherwise the first 11 as ddd.ddd.ddd-dd followed by the remaining digits |
| RegisterPage.FormatCPFKeepsDigits | src/app/register/page.tsx:43-46 | removing non-digits from the output gives the digits of the input |
| RegisterPage.FormatCPFIdempotent | src/app/register/page.tsx:43-46 | formatting twice equals formatting once |
| RegisterPage.FormatPhone | src/app/register/page.tsx:48-51 | under 11 digits, the bare digits; otherwise the first 11 as (dd) ddddd-dddd followed by the remaining digits |
| RegisterPage.FormatPhoneKeepsDigits | src/app/register/page.tsx:48-51 | removing non-digits from the output gives the digits of the input |
| RegisterPage.FormatPhoneIdempotent | src/app/register/page.tsx:48-51 | formatting twice equals formatting once |
| RegisterPage.ValidateForm | src/app/register/page.tsx:53-70 | valid iff the four fields are filled, the password has at least 8 characters and equals its confirmation; otherwise the message of the first failed check |
| RegisterPage.NextStep | src/app/register/page.tsx:72-80 | step 1 advances iff the personal fields are filled; otherwise the next step is min(step + 1, 3), so step 2 goes to 3 and steps never go past 3 |
| RegisterPage.PrevStep | src/app/register/page.tsx:82-84 | the previous step is max(step - 1, 1): one back, never below 1 |
| RegisterPage.RunStaysInRange | src/app/register/page.tsx:72-84 | from step 1, 2 or 3, any run of next and back presses stays within 1..3 |
| RegisterPage.IncompleteStaysOnFirst | src/app/register/page.tsx:72-80 | without the personal fields, no run of presses leaves step 1 |
| TransferPage.Sanitize | src/app/transfer/page.tsx:60-64 | only digits and points remain, and every digit or point of the input is kept |
| TransferPage.SanitizeAppend | src/app/transfer/page.tsx:60-64 | the kept characters stay in their original order |
| TransferPage.SanitizeKeepsClean | src/app/transfer/page.tsx:60-64 | an input of digits and points passes unchanged |
| TransferPage.SanitizeIdempotent | src/app/transfer/page.tsx:60-64 | sanitising twice equals sanitising once |
| TransferPage.ParseAmount | src/app/transfer/page.tsx:68 | NaN iff no digit comes before or right after the first point; otherwise a non-negative value |
| TransferPage.ParseAmountPositive | src/app/transfer/page.tsx:68 | a parsed amount is positive iff a digit it read is not 0 |
| TransferPage.ParseWholeNumber | src/app/transfer/page.tsx:68 | a plain run of digits parses to its decimal value |
| TransferPage.NextStepAsWritten | src/app/transfer/page.tsx:66-76 | step 2 advances iff the amount is non-empty and does not parse to at most 0; step 3 goes to 4 |
| TransferPage.PointPassesAmountStep | src/app/transfer/page.tsx:60-76 | the input "." survives sanitising, does not parse, and still takes step 2 to step 3 |
| TransferPage.NextStep | src/app/transfer/page.tsx:66-76 | step 2 advances iff the amount parses to a positive number; step 3 goes to 4 |
| TransferPage.NextStepDiffersOnlyOnNaN | src/app/transfer/page.tsx:66-76 | the corrected and the written step rules differ exactly on non-empty amounts that do not parse |
| TransferPage.ReviewNeedsPositiveAmount | src/app/transfer/page.tsx:66-76 | reaching step 3 needs an amount containing a non-zero digit |
| TransferPage.RiskLabel | src/app/transfer/page.tsx:85-88 | 'high' iff the score is above 70, 'low' iff at most 40, 'medium' otherwise |
| TransferPage.RiskLabelMonotone | src/app/transfer/page.tsx:85-88 | a higher score never gets a lower label |
| TransferPage.PageFactors | src/app/transfer/page.tsx:89-94 | amount above 1000 gives 80 (else 20); hour before 6 or after 22 gives 60 (else 10); recipient score above 700 gives 10 (else 50); pattern is 30; each score is one of its two values |
| TransferPage.Request | src/app/transfer/page.tsx:103-107 | the request carries the destination and the parsed amount; an empty description becomes 'Transferência P2P' |
| TransferPage.HandleTransfer | src/app/transfer/page.tsx:78-101 | nothing happens without a user or a recipient; a score above 80 goes to biometric confirmation without submitting; otherwise the request is submitted |
| TransferPage.StepUpIsHighRisk | src/app/transfer/page.tsx:85-101 | every transfer held for biometrics was labelled high risk |
| TransferPage.SelectRecipient | src/app/transfer/page.tsx:54-58 | selecting a recipient fills in the destination, keeps the other fields and opens step 2 |
| TransferPage.ChangeAmount | src/app/transfer/page.tsx:60-64 | the stored amount is the sanitised input; the other fields are kept |
| CommunityPage.Lower | src/app/community/page.tsx:154-156 | ASCII upper-case letters map to lower case; everything else is unchanged |
| CommunityPage.IncludesMeansOccurs | src/app/community/page.tsx:154-156 | the containment scan succeeds iff the term occurs at some position |
| CommunityPage.MatchesFilter | src/app/community/page.tsx:158-161 | 'all' admits everyone, 'verified' the verified, 'high-score' scores above 750, 'mutual' people with mutual connections; any other value admits nobody |
| CommunityPage.FilterCommunity | src/app/community/page.tsx:153-164 | exactly the people matching both the search and the filter |
| CommunityPage.FilterCommunityAppend | src/app/community/page.tsx:153-164 | the listing keeps the page's order |
| CommunityPage.FilterCommunityIdempotent | src/app/community/page.tsx:153-164 | filtering the listing again changes nothing |
| CommunityPage.EmptySearchListsEveryone | src/app/community/page.tsx:154-158 | an empty search with the 'all' filter lists everybody |
| CommunityPage.UnknownFilterListsNobody | src/app/community/page.tsx:158-161 | an unknown filter value lists nobody |
| CommunityPage.SearchIgnoresCase | src/app/community/page.tsx:154-156 | two search terms with the same lower-case form list the same people |
| CommunityPage.NamePieceFindsPerson | src/app/community/page.tsx:154 | a person is found by any piece of their name, in any case |

## Left out

- Simulated latency: every `await new Promise(setTimeout)` delay. The operations are synchronous.
- Toasts, router navigation and all rendering, including the dashboard, admin, security, login and landing pages.
- Tokens and sessions in `src/lib/auth.ts`: `generateToken`, `parseToken` and `getCurrentUser`. They depend on `btoa`/`atob`, JSON, `localStorage` and `Date.now`.
- `src/lib/qiTechApi.ts` is not part of this model. It is an HTTP client over `fetch`.
- `src/hooks/useAuth.tsx` is not part of this model. It is context glue around the auth service.
- The formatting, timing and id helpers of `src/lib/utils.ts` are left out: `formatCurrency`, `formatDate`, `formatDateTime`, `debounce`, `throttle`, `cn` and `generateId`.
- Randomness is supplied as inputs:
  - the fraud engine's location, device and pattern draws, as booleans;
  - the wallet's random term, as a real in [0, 20);
  - the transfer page's fraud score, as a real in [0, 100);
  - the random initial credit factors and all generated ids.
- Clock reads are inputs: the hour is a `Hour` in 0..23, and dates are integer timestamps ordered by value.
- Floating point: amounts are integer cents, factors and trust levels are integers, and `Math.round` of a weighted sum is exact decimal rounding. Results are proved equal to the decimal expressions the source writes, not to IEEE-754 evaluation.
- `TransferPage.ParseAmount`: exact decimal, not a double. It handles the digits-and-points strings the sanitiser leaves. It does not model signs, exponents, whitespace or `Infinity`, or the rounding of inputs too long for a double.
- The transfer page's amount is in reais, as the page parses it. Converting it to the wallet's cents is left out.
- `FraudDetection.AverageRiskScore`: the source divides in floating point, and an empty batch averages 0. The model divides exactly in `real`, so floating-point rounding of the quotient is not modelled.
- `CreditScoring.Refreshed`: the source recomputes scores in place on the shared record object. The model returns a new record and writes it back at the user's first position.
- The community page's `handleEndorse` and `handleConnect` only call `endorseUser` and `addCommunityConnection` (trust 80), which `CreditScoring` models.
- `CommunityPage.Lower`: ASCII case folding only. Unicode `toLowerCase` is not modelled.
- `RegisterPage.ValidateForm`: the password length counts Unicode characters. JavaScript's `length` counts UTF-16 code units, so the two differ only for characters outside the Basic Multilingual Plane.
- `Auth.EnableBiometric` and `Auth.EnableTwoFactor` require the model's state invariant `Valid`: the current user is a stored user. The source guarantees this because it only ever sets `currentUser` to a stored user.
- `FraudDetection.Weight`: the source indexes a plain object by the name's text, so a name that is an `Object.prototype` member (`"constructor"`, `"toString"`) picks up a function, and the score becomes NaN. The model weighs such names 0.1 like any other unlisted text.
- `WalletLedger.SortNewestFirst`: the sort is stable, as `Array.prototype.sort` is, but the contract does not state that transactions with the same `createdAt` keep their log order.
- `WalletLedger.DoTransfer` requires the random term in [0, 20), the range of `Math.random() * 20`.

## Findings

| source | as written | input that shows it | evidently intended | confidence | as-written member | corrected member |
|---|---|---|---|---|---|---|
| src/app/transfer/page.tsx:60-76 | step 2 stays only for an empty amount or `parseFloat(amount) <= 0`; `NaN <= 0` is false | amount field "." (for example, typing "abc."): it sanitises to ".", parses to NaN, and the wizard moves on to step 3 | advance only for an amount that parses to a positive number, as the error message 'Digite um valor válido' says | high; not executed | TransferPage.NextStepAsWritten, TransferPage.PointPassesAmountStep | TransferPage.NextStep, TransferPage.ReviewNeedsPositiveAmount |

=== FILE: auth.dfy ===
/** The user registry and login gate of `src/lib/auth.ts`: the user list and
    the current user. The current user is an index into the list, because the
    source's `currentUser` is the very object stored in the list, so enabling
    a flag on it changes the stored user. */
module Auth {
  import opened Wrappers
  import opened Types
  import opened Seqs

  datatype AuthState = AuthState(users: seq<User>, current: Option<nat>)

  /** The current user, when there is one, is a stored user. */
  predicate Valid(st: AuthState)
  {
    st.current.Some? ==> st.current.value < |st.users|
  }

  datatype AuthError =
    | UserNotFound            // 'Usuário não encontrado'
    | BiometricNotConfigured  // 'Biometria não configurada'
    | TwoFactorRequired       // 'Código 2FA necessário'
    | UserExists              // 'Usuário já existe'
    | NotAuthenticated        // 'Usuário não autenticado'

  // ---------------------------------------------------------------------------
  // Login and logout

  function FindByEmail(users: seq<User>, email: string): (r: Option<nat>)
    ensures r.Some? ==> r.value < |users| && users[r.value].email == email
    ensures r.Some? ==> forall j :: 0 <= j < r.value ==> users[j].email != email
    ensures r.None? <==> forall j :: 0 <= j < |users| ==> users[j].email != email
  {
    FindIndex(users, (u: User) => u.email == email)
  }

  /** `login`, in the source's order of checks: an unknown email; biometric
      data offered to a user without biometrics; a user with two-factor
      authentication and no code. The password is never looked at. On
      success the first user with that email becomes the current user. */
  function Login(st: AuthState, credentials: LoginRequest): (r: (AuthState, Result<User, AuthError>))
    ensures r.0.users == st.users
    ensures r.1.Failure? ==> r.0 == st
    ensures FindByEmail(st.users, credentials.email).None? <==> r.1 == Failure(UserNotFound)
    ensures FindByEmail(st.users, credentials.email).Some? ==>
      var i := FindByEmail(st.users, credentials.email).value;
      var user := st.users[i];
      && (r.1 == Failure(BiometricNotConfigured) <==> Truthy(credentials.biometricData) && !user.biometricEnabled)
      && (r.1 == Failure(TwoFactorRequired) <==>
            !(Truthy(credentials.biometricData) && !user.biometricEnabled)
            && user.twoFactorEnabled && !Truthy(credentials.twoFactorCode))
      && (r.1.Success? ==> r.1.value == user && r.0.current == Some(i))
      && (r.1.Success? <==> !(Truthy(credentials.biometricData) && !user.biometricEnabled)
                            && !(user.twoFactorEnabled && !Truthy(credentials.twoFactorCode)))
  {
    match FindByEmail(st.users, credentials.email)
    case None => (st, Failure(UserNotFound))
    case Some(i) =>
      var user := st.users[i];
      if Truthy(credentials.biometricData) && !user.biometricEnabled then (st, Failure(BiometricNotConfigured))
      else if user.twoFactorEnabled && !Truthy(credentials.twoFactorCode) then (st, Failure(TwoFactorRequired))
      else (st.(current := Some(i)), Success(user))
  }

  /** The outcome of a login does not depend on the password. */
  lemma LoginIgnoresPassword(st: AuthState, credentials: LoginRequest, password: string)
    ensures Login(st, credentials.(password := password)) == Login(st, credentials)
  {
  }

  /** A successful login leaves a valid state logged in as a user with the
      given email. */
  lemma LoginValid(st: AuthState, credentials: LoginRequest)
    requires Valid(st)
    ensures Valid(Login(st, credentials).0)
    ensures Login(st, credentials).1.Success? ==>
      var st' := Login(st, credentials).0;
      st'.current.Some? && st'.users[st'.current.value].email == credentials.email
  {
  }

  /** `logout`: nobody is logged in afterwards. */
  function Logout(st: AuthState): (r: AuthState)
    ensures r.users == st.users && r.current.None? && Valid(r)
  {
    st.(current := None)
  }

  /** Logging out forgets only who is logged in: a later login behaves as it
      would have without the logout. */
  lemma LoginAfterLogout(st: AuthState, credentials: LoginRequest)
    ensures Login(Logout(st), credentials).1 == Login(st, credentials).1
    ensures Login(Logout(st), credentials).1.Success? ==> Login(Logout(st), credentials).0 == Login(st, credentials).0
    ensures Login(Logout(st), credentials).1.Failure? ==> Login(Logout(st), credentials).0.current.None?
  {
  }

  // ---------------------------------------------------------------------------
  // Registration

  /** An existing user that a registration would clash with. */
  predicate Clashes(u: User, request: RegisterRequest)
  {
    u.email == request.email || u.cpf == request.cpf
  }

  /** `register`: refuses a request whose email or CPF is already taken;
      otherwise appends an unverified user without two-factor authentication,
      with biometrics iff biometric data was sent, and logs them in. */
  function Register(st: AuthState, request: RegisterRequest, id: string, now: Timestamp): (r: (AuthState, Result<User, AuthError>))
    ensures (exists j :: 0 <= j < |st.users| && Clashes(st.users[j], request)) <==> r.1 == Failure(UserExists)
    ensures (exists j :: 0 <= j < |st.users| && Clashes(st.users[j], request)) <==> r.1.Failure?
    ensures r.1.Failure? ==> r.0 == st
    ensures r.1.Success? ==>
      && r.0.users == st.users + [r.1.value]
      && r.0.current == Some(|st.users|)
      && r.1.value.email == request.email && r.1.value.cpf == request.cpf
      && r.1.value.name == request.name && r.1.value.phone == request.phone && r.1.value.id == id
      && !r.1.value.isVerified && !r.1.value.twoFactorEnabled
      && (r.1.value.biometricEnabled <==> Truthy(request.biometricData))
    ensures r.1.Success? ==>
      r.1.value == User(id, request.email, request.name, request.phone, request.cpf, None,
                        now, now, false, Truthy(request.biometricData), false)
  {
    match FindIndex(st.users, (u: User) => Clashes(u, request))
    case Some(_) => (st, Failure(UserExists))
    case None =>
      var user := User(id, request.email, request.name, request.phone, request.cpf, None,
                       now, now, false, Truthy(request.biometricData), false);
      (AuthState(st.users + [user], Some(|st.users|)), Success(user))
  }

  /** No two users share an email, and no two share a CPF. */
  predicate Unique(users: seq<User>)
  {
    forall i, j :: 0 <= i < j < |users| ==> users[i].email != users[j].email && users[i].cpf != users[j].cpf
  }

  lemma RegisterKeepsUnique(st: AuthState, request: RegisterRequest, id: string, now: Timestamp)
    requires Unique(st.users) && Valid(st)
    ensures Unique(Register(st, request, id, now).0.users) && Valid(Register(st, request, id, now).0)
  {
    var (st', result) := Register(st, request, id, now);
    if result.Success? {
      forall i, j | 0 <= i < j < |st'.users|
        ensures st'.users[i].email != st'.users[j].email && st'.users[i].cpf != st'.users[j].cpf
      {
        if j == |st.users| {
          assert !Clashes(st.users[i], request);
        }
      }
    }
  }

  /** A run of registrations, each with its generated id, against one clock reading per step. */
  function RegisterAll(st: AuthState, requests: seq<RegisterRequest>, ids: seq<string>, now: Timestamp): (r: AuthState)
    requires |ids| == |requests|
    decreases |requests|
  {
    if |requests| == 0 then st
    else RegisterAll(Register(st, requests[0], ids[0], now).0, requests[1..], ids[1..], now)
  }

  /** Whatever is registered, in whatever order and with whatever failures,
      emails and CPFs stay unique. */
  lemma {:induction false} RegisterAllKeepsUnique(st: AuthState, requests: seq<RegisterRequest>, ids: seq<string>, now: Timestamp)
    requires |ids| == |requests|
    requires Unique(st.users) && Valid(st)
    ensures Unique(RegisterAll(st, requests, ids, now).users) && Valid(RegisterAll(st, requests, ids, now))
    decreases |requests|
  {
    if |requests| > 0 {
      RegisterKeepsUnique(st, requests[0], ids[0], now);
      RegisterAllKeepsUnique(Register(st, requests[0], ids[0], now).0, requests[1..], ids[1..], now);
    }
  }

  // ---------------------------------------------------------------------------
  // Security flags

  /** The current user with one change applied in place. */
  function UpdateCurrent(st: AuthState, user: User): AuthState
    requires Valid(st) && st.current.Some?
  {
    st.(users := st.users[st.current.value := user])
  }

  /** `enableBiometric`: turns biometrics on for the current user. */
  function EnableBiometric(st: AuthState, now: Timestamp): (r: (AuthState, Result<(), AuthError>))
    requires Valid(st)
    ensures st.current.None? <==> r.1 == Failure(NotAuthenticated)
    ensures r.1.Failure? ==> r.0 == st
    ensures Valid(r.0) && r.0.current == st.current && |r.0.users| == |st.users|
    ensures forall j :: 0 <= j < |st.users| && Some(j) != st.current ==> r.0.users[j] == st.users[j]
    ensures st.current.Some? ==>
      var i := st.current.value;
      r.0.users[i] == st.users[i].(biometricEnabled := true, updatedAt := now)
  {
    match st.current
    case None => (st, Failure(NotAuthenticated))
    case Some(i) => (UpdateCurrent(st, st.users[i].(biometricEnabled := true, updatedAt := now)), Success(()))
  }

  /** What `enableTwoFactor` hands back to the page. */
  datatype TwoFactorSetup = TwoFactorSetup(qrCode: string, secret: string)

  const Setup := TwoFactorSetup(
    "data:image/png;base64,iVBORw0KGgoAAAANSUhEUgAAAAEAAAABCAYAAAAfFcSJAAAADUlEQVR42mNkYPhfDwAChwGA60e6kgAAAABJRU5ErkJggg==",
    "JBSWY3DPEHPK3PXP")

  /** `enableTwoFactor`: turns two-factor authentication on for the current
      user and returns the fixed demo secret. */
  function EnableTwoFactor(st: AuthState, now: Timestamp): (r: (AuthState, Result<TwoFactorSetup, AuthError>))
    requires Valid(st)
    ensures st.current.None? <==> r.1 == Failure(NotAuthenticated)
    ensures r.1.Failure? ==> r.0 == st
    ensures r.1.Success? ==> r.1.value.secret == "JBSWY3DPEHPK3PXP"
    ensures Valid(r.0) && r.0.current == st.current && |r.0.users| == |st.users|
    ensures forall j :: 0 <= j < |st.users| && Some(j) != st.current ==> r.0.users[j] == st.users[j]
    ensures st.current.Some? ==>
      var i := st.current.value;
      r.0.users[i] == st.users[i].(twoFactorEnabled := true, updatedAt := now)
  {
    match st.current
    case None => (st, Failure(NotAuthenticated))
    case Some(i) => (UpdateCurrent(st, st.users[i].(twoFactorEnabled := true, updatedAt := now)), Success(Setup))
  }

  /** Enabling a flag changes neither emails nor CPFs. */
  lemma EnableKeepsUnique(st: AuthState, now: Timestamp)
    requires Valid(st) && Unique(st.users)
    ensures Unique(EnableBiometric(st, now).0.users)
    ensures Unique(EnableTwoFactor(st, now).0.users)
  {
    var a := EnableBiometric(st, now).0.users;
    var b := EnableTwoFactor(st, now).0.users;
    assert forall j :: 0 <= j < |st.users| ==> a[j].email == st.users[j].email && a[j].cpf == st.users[j].cpf;
    assert forall j :: 0 <= j < |st.users| ==> b[j].email == st.users[j].email && b[j].cpf == st.users[j].cpf;
  }

  /** Once two-factor authentication is on, a login without a code fails
      unless it already fails for lack of biometrics. */
  lemma TwoFactorGuardsLogin(st: AuthState, now: Timestamp, credentials: LoginRequest)
    requires Valid(st) && Unique(st.users) && st.current.Some?
    requires st.users[st.current.value].email == credentials.email
    requires !Truthy(credentials.twoFactorCode)
    ensures Login(EnableTwoFactor(st, now).0, credentials).1.Failure?
  {
    var st' := EnableTwoFactor(st, now).0;
    var i := st.current.value;
    EnableKeepsUnique(st, now);
    assert st'.users[i].email == credentials.email;
    assert forall j :: 0 <= j < |st'.users| && j != i ==> st'.users[j].email != credentials.email by {
      forall j | 0 <= j < |st'.users| && j != i
        ensures st'.users[j].email != credentials.email
      {
        if j < i {
          assert st'.users[j].email != st'.users[i].email;
        } else {
          assert st'.users[i].email != st'.users[j].email;
        }
      }
    }
    assert FindByEmail(st'.users, credentials.email) == Some(i);
  }
}

=== FILE: community_page.dfy ===
/** The search and filter of the community page (`src/app/community/page.tsx`):
    a person is listed when the search term occurs, ignoring case, in their
    name, bio or one of their tags, and the selected filter admits them. */
module CommunityPage {
  import opened Seqs

  // ---------------------------------------------------------------------------
  // Case folding and containment

  /** `toLowerCase` on one character, for the ASCII letters. */
  function Lower(c: char): (r: char)
    ensures 'A' <= c <= 'Z' ==> r as int == c as int + 32
    ensures !('A' <= c <= 'Z') ==> r == c
    ensures !('A' <= r <= 'Z')
  {
    if 'A' <= c <= 'Z' then (c as int + 32) as char else c
  }

  function LowerString(s: string): (r: string)
    ensures |r| == |s|
    ensures forall i :: 0 <= i < |s| ==> r[i] == Lower(s[i])
  {
    seq(|s|, i requires 0 <= i < |s| => Lower(s[i]))
  }

  lemma LowerStringIdempotent(s: string)
    ensures LowerString(LowerString(s)) == LowerString(s)
  {
  }

  /** `needle` occurs in `hay` starting at `k`. */
  predicate OccursAt(hay: string, needle: string, k: int)
  {
    0 <= k && k + |needle| <= |hay| && hay[k..k + |needle|] == needle
  }

  /** `hay.includes(needle)`, scanning from the left. */
  function Includes(hay: string, needle: string): (r: bool)
    ensures |needle| == 0 ==> r
    ensures |needle| > |hay| ==> !r
    decreases |hay|
  {
    if needle <= hay then true
    else if |hay| == 0 then false
    else Includes(hay[1..], needle)
  }

  /** The scan finds `needle` exactly when it occurs somewhere. */
  lemma {:induction false} IncludesMeansOccurs(hay: string, needle: string)
    ensures Includes(hay, needle) <==> exists k :: OccursAt(hay, needle, k)
    decreases |hay|
  {
    if needle <= hay {
      assert OccursAt(hay, needle, 0);
    } else if |hay| == 0 {
      assert |needle| > 0;
      assert forall k :: !OccursAt(hay, needle, k);
    } else {
      IncludesMeansOccurs(hay[1..], needle);
      if |needle| <= |hay| {
        assert hay[0..|needle|] == hay[..|needle|];
      }
      assert !OccursAt(hay, needle, 0);
      if exists k :: OccursAt(hay[1..], needle, k) {
        var k :| OccursAt(hay[1..], needle, k);
        assert hay[k + 1..k + 1 + |needle|] == hay[1..][k..k + |needle|];
        assert OccursAt(hay, needle, k + 1);
      }
      if exists k :: OccursAt(hay, needle, k) {
        var k :| OccursAt(hay, needle, k);
        assert hay[1..][k - 1..k - 1 + |needle|] == hay[k..k + |needle|];
        assert OccursAt(hay[1..], needle, k - 1);
      }
    }
  }

  // ---------------------------------------------------------------------------
  // People and the filter

  /** The fields of a listed person the page filters on. */
  datatype Person = Person(
    id: string,
    name: string,
    score: int,
    isVerified: bool,
    mutualConnections: int,
    bio: string,
    tags: seq<string>)

  /** `text.toLowerCase().includes(term.toLowerCase())`. */
  predicate FoldedIncludes(text: string, term: string)
  {
    Includes(LowerString(text), LowerString(term))
  }

  /** The search part of the predicate. */
  predicate MatchesSearch(p: Person, term: string)
  {
    FoldedIncludes(p.name, term) || FoldedIncludes(p.bio, term)
    || exists j :: 0 <= j < |p.tags| && FoldedIncludes(p.tags[j], term)
  }

  /** The filter part: 'all', 'verified', 'high-score' (strictly above 750)
      and 'mutual'; any other value admits nobody. */
  function MatchesFilter(p: Person, filter: string): (r: bool)
    ensures filter == "all" ==> r
    ensures filter == "verified" ==> (r <==> p.isVerified)
    ensures filter == "high-score" ==> (r <==> p.score > 750)
    ensures filter == "mutual" ==> (r <==> p.mutualConnections > 0)
    ensures filter !in {"all", "verified", "high-score", "mutual"} ==> !r
  {
    filter == "all"
    || (filter == "verified" && p.isVerified)
    || (filter == "high-score" && p.score > 750)
    || (filter == "mutual" && p.mutualConnections > 0)
  }

  function Listed(term: string, filter: string): Person -> bool
  {
    (p: Person) => MatchesSearch(p, term) && MatchesFilter(p, filter)
  }

  /** `filteredCommunity`. */
  function FilterCommunity(people: seq<Person>, term: string, filter: string): (r: seq<Person>)
    ensures |r| <= |people|
    ensures forall i :: 0 <= i < |r| ==> r[i] in people && MatchesSearch(r[i], term) && MatchesFilter(r[i], filter)
    ensures forall i :: 0 <= i < |people| && MatchesSearch(people[i], term) && MatchesFilter(people[i], filter)
              ==> people[i] in r
  {
    Filter(people, Listed(term, filter))
  }

  /** The listing keeps the page's order: filtering a concatenation is
      filtering each part. */
  lemma FilterCommunityAppend(a: seq<Person>, b: seq<Person>, term: string, filter: string)
    ensures FilterCommunity(a + b, term, filter) == FilterCommunity(a, term, filter) + FilterCommunity(b, term, filter)
  {
    FilterAppend(a, b, Listed(term, filter));
  }

  /** Filtering what is listed changes nothing. */
  lemma FilterCommunityIdempotent(people: seq<Person>, term: string, filter: string)
    ensures FilterCommunity(FilterCommunity(people, term, filter), term, filter) == FilterCommunity(people, term, filter)
  {
    FilterIdempotent(people, Listed(term, filter));
  }

  /** An empty search with the 'all' filter lists everybody. */
  lemma EmptySearchListsEveryone(people: seq<Person>)
    ensures FilterCommunity(people, "", "all") == people
  {
    forall p: Person ensures Listed("", "all")(p) {
      assert FoldedIncludes(p.name, "");
    }
    FilterKeepsAll(people, Listed("", "all"));
  }

  /** An unrecognised filter lists nobody, whatever the search. */
  lemma {:induction false} UnknownFilterListsNobody(people: seq<Person>, term: string, filter: string)
    requires filter !in {"all", "verified", "high-score", "mutual"}
    ensures FilterCommunity(people, term, filter) == []
    decreases |people|
  {
    if |people| > 0 {
      UnknownFilterListsNobody(people[1..], term, filter);
      assert people == [people[0]] + people[1..];
      FilterCommunityAppend([people[0]], people[1..], term, filter);
    }
  }

  /** Search ignores case: two terms with the same lower-case form list the
      same people. */
  lemma {:induction false} SearchIgnoresCase(people: seq<Person>, term: string, term': string, filter: string)
    requires LowerString(term) == LowerString(term')
    ensures FilterCommunity(people, term, filter) == FilterCommunity(people, term', filter)
    decreases |people|
  {
    if |people| > 0 {
      SearchIgnoresCase(people[1..], term, term', filter);
      assert people == [people[0]] + people[1..];
      FilterCommunityAppend([people[0]], people[1..], term, filter);
      FilterCommunityAppend([people[0]], people[1..], term', filter);
      assert MatchesSearch(people[0], term) == MatchesSearch(people[0], term');
    }
  }

  /** A person is found by any piece of their name, in any case. */
  lemma NamePieceFindsPerson(p: Person, k: nat, n: nat)
    requires k + n <= |p.name|
    ensures MatchesSearch(p, LowerString(p.name[k..k + n]))
  {
    var hay := LowerString(p.name);
    var needle := LowerString(LowerString(p.name[k..k + n]));
    LowerStringIdempotent(p.name[k..k + n]);
    assert hay[k..k + n] == needle;
    assert OccursAt(hay, needle, k);
    IncludesMeansOccurs(hay, needle);
  }
}

=== FILE: credit_score.dfy ===
/** The credit-score service of `src/lib/creditScore.ts`: four fixed-weight
    formulas over six factors and the trust graph, and a store of score
    records and community connections. Weights are integer hundredths, so
    each `Math.round(weighted sum)` is `RoundDiv(sum in hundredths, 100)`. */
module CreditScoring {
  import opened Wrappers
  import opened Types
  import opened Seqs
  import opened Numeric

  // ---------------------------------------------------------------------------
  // The four formulas

  /** `calculateTraditionalScore`: 35% payment history, 30% credit
      utilisation, 35% credit history, rounded to the nearest integer. */
  function TraditionalScore(f: Factors): (r: int)
    ensures 200 * r - 100 <= 2 * (35 * f.paymentHistory + 30 * f.creditUtilization + 35 * f.creditHistory) < 200 * r + 100
  {
    RoundDiv(35 * f.paymentHistory + 30 * f.creditUtilization + 35 * f.creditHistory, 100)
  }

  function ToUser(userId: string): CommunityConnection -> bool
  {
    (c: CommunityConnection) => c.toUserId == userId
  }

  /** The connections pointing at `userId`, in store order. */
  function Inbound(connections: seq<CommunityConnection>, userId: string): (r: seq<CommunityConnection>)
    ensures forall i :: 0 <= i < |r| ==> r[i].toUserId == userId && r[i] in connections
    ensures forall i :: 0 <= i < |connections| && connections[i].toUserId == userId ==> connections[i] in r
  {
    Filter(connections, ToUser(userId))
  }

  function TrustSum(cs: seq<CommunityConnection>): int
  {
    if |cs| == 0 then 0 else cs[0].trustLevel + TrustSum(cs[1..])
  }

  /** `calculateCommunityScore`: 40% community trust, 30% social connections
      and 30% of the mean trust level of the inbound connections (0 when
      there are none). With `n` inbound connections the sum is taken over the
      common denominator `100 * n`. */
  function CommunityScore(f: Factors, connections: seq<CommunityConnection>, userId: string): (r: int)
    ensures var base := 40 * f.communityTrust + 30 * f.socialConnections;
      |Inbound(connections, userId)| == 0 ==> 200 * r - 100 <= 2 * base < 200 * r + 100
  {
    var inbound := Inbound(connections, userId);
    var base := 40 * f.communityTrust + 30 * f.socialConnections;
    if |inbound| == 0 then
      RoundDivNearest(base, 100);
      RoundDiv(base, 100)
    else RoundDiv(base * |inbound| + 30 * TrustSum(inbound), 100 * |inbound|)
  }

  /** `calculateBehaviorScore`: 60% transaction patterns, 40% payment history. */
  function BehaviorScore(f: Factors): (r: int)
    ensures 200 * r - 100 <= 2 * (60 * f.transactionPatterns + 40 * f.paymentHistory) < 200 * r + 100
  {
    RoundDiv(60 * f.transactionPatterns + 40 * f.paymentHistory, 100)
  }

  /** `calculateFinalScore`: 40% traditional, 35% community, 25% behaviour,
      over the already rounded sub-scores. */
  function FinalScore(traditional: int, community: int, behavior: int): (r: int)
    ensures 200 * r - 100 <= 2 * (40 * traditional + 35 * community + 25 * behavior) < 200 * r + 100
  {
    RoundDiv(40 * traditional + 35 * community + 25 * behavior, 100)
  }

  // ---------------------------------------------------------------------------
  // The formulas as the source writes them, over exact decimals

  /** The mean trust level of some connections, 0 for none. */
  function MeanTrust(cs: seq<CommunityConnection>): real
  {
    if |cs| == 0 then 0.0 else TrustSum(cs) as real / |cs| as real
  }

  lemma TraditionalScoreMatchesDecimal(f: Factors)
    ensures TraditionalScore(f)
         == Round(f.paymentHistory as real * 0.35 + f.creditUtilization as real * 0.30
                  + f.creditHistory as real * 0.35)
  {
    var n := 35 * f.paymentHistory + 30 * f.creditUtilization + 35 * f.creditHistory;
    RoundDivReal(n, 100);
  }

  lemma BehaviorScoreMatchesDecimal(f: Factors)
    ensures BehaviorScore(f) == Round(f.transactionPatterns as real * 0.6 + f.paymentHistory as real * 0.4)
  {
    RoundDivReal(60 * f.transactionPatterns + 40 * f.paymentHistory, 100);
  }

  lemma FinalScoreMatchesDecimal(traditional: int, community: int, behavior: int)
    ensures FinalScore(traditional, community, behavior)
         == Round(traditional as real * 0.4 + community as real * 0.35 + behavior as real * 0.25)
  {
    RoundDivReal(40 * traditional + 35 * community + 25 * behavior, 100);
  }

  lemma CommunityScoreMatchesDecimal(f: Factors, connections: seq<CommunityConnection>, userId: string)
    ensures CommunityScore(f, connections, userId)
         == Round(f.communityTrust as real * 0.4 + f.socialConnections as real * 0.3
                  + MeanTrust(Inbound(connections, userId)) * 0.3)
  {
    var inbound := Inbound(connections, userId);
    var base := 40 * f.communityTrust + 30 * f.socialConnections;
    var x := f.communityTrust as real * 0.4 + f.socialConnections as real * 0.3;
    assert base as real / 100.0 == x;
    if |inbound| == 0 {
      RoundDivReal(base, 100);
    } else {
      var n := |inbound|;
      var s := TrustSum(inbound);
      RoundDivReal(base * n + 30 * s, 100 * n);
      MeanDenominator(base, s, n);
    }
  }

  /** Putting the mean over the common denominator `100 * n`. */
  lemma MeanDenominator(base: int, s: int, n: int)
    requires n > 0
    ensures (base * n + 30 * s) as real / (100 * n) as real
         == base as real / 100.0 + (s as real / n as real) * 0.3
  {
    var nr := n as real;
    var m := s as real / nr;
    assert m * nr == s as real;
    var lhs := (base * n + 30 * s) as real / (100 * n) as real;
    var rhs := base as real / 100.0 + m * 0.3;
    assert (base * n + 30 * s) as real == base as real * nr + 30.0 * s as real;
    assert lhs * (100.0 * nr) == base as real * nr + 30.0 * s as real;
    assert rhs * (100.0 * nr) == base as real * nr + 30.0 * (m * nr);
    ScaleEq(lhs, rhs, 100.0 * nr);
  }

  lemma ScaleEq(a: real, b: real, c: real)
    requires c > 0.0 && a * c == b * c
    ensures a == b
  {
  }

  // ---------------------------------------------------------------------------
  // Ranges: each weight set sums to one

  /** The traditional and behaviour scores lie between their smallest and
      largest inputs, and the final score between its three sub-scores. */
  lemma SubScoresBetween(f: Factors, traditional: int, community: int, behavior: int)
    ensures var p, u, h := f.paymentHistory, f.creditUtilization, f.creditHistory;
      Min3(p, u, h) <= TraditionalScore(f) <= Max3(p, u, h)
    ensures var t, p := f.transactionPatterns, f.paymentHistory;
      Min(t, p) <= BehaviorScore(f) <= Max(t, p)
    ensures Min3(traditional, community, behavior) <= FinalScore(traditional, community, behavior)
         <= Max3(traditional, community, behavior)
  {
    var p, u, h := f.paymentHistory, f.creditUtilization, f.creditHistory;
    RoundDivBetween(35 * p + 30 * u + 35 * h, 100, Min3(p, u, h), Max3(p, u, h));
    var t := f.transactionPatterns;
    RoundDivBetween(60 * t + 40 * p, 100, Min(t, p), Max(t, p));
    RoundDivBetween(40 * traditional + 35 * community + 25 * behavior, 100,
                    Min3(traditional, community, behavior), Max3(traditional, community, behavior));
  }

  predicate FactorsInRange(f: Factors)
  {
    && 0 <= f.paymentHistory <= 100
    && 0 <= f.creditUtilization <= 100
    && 0 <= f.creditHistory <= 100
    && 0 <= f.communityTrust <= 100
    && 0 <= f.socialConnections <= 100
    && 0 <= f.transactionPatterns <= 100
  }

  predicate TrustInRange(connections: seq<CommunityConnection>)
  {
    forall i :: 0 <= i < |connections| ==> 0 <= connections[i].trustLevel <= 100
  }

  lemma {:induction false} TrustSumRange(cs: seq<CommunityConnection>)
    requires TrustInRange(cs)
    ensures 0 <= TrustSum(cs) <= 100 * |cs|
  {
    if |cs| > 0 {
      TrustSumRange(cs[1..]);
    }
  }

  /** Inbound connections are a sub-list of the store, so they inherit its range. */
  lemma InboundInRange(connections: seq<CommunityConnection>, userId: string)
    requires TrustInRange(connections)
    ensures TrustInRange(Inbound(connections, userId))
  {
    var inbound := Inbound(connections, userId);
    forall i | 0 <= i < |inbound|
      ensures 0 <= inbound[i].trustLevel <= 100
    {
      assert inbound[i] in connections;
    }
  }

  lemma CommunityScoreRange(f: Factors, connections: seq<CommunityConnection>, userId: string)
    requires FactorsInRange(f) && TrustInRange(connections)
    ensures 0 <= CommunityScore(f, connections, userId) <= 100
  {
    var inbound := Inbound(connections, userId);
    var base := 40 * f.communityTrust + 30 * f.socialConnections;
    if |inbound| == 0 {
      RoundDivBetween(base, 100, 0, 100);
    } else {
      var n := |inbound|;
      InboundInRange(connections, userId);
      TrustSumRange(inbound);
      MulMono(0, base, n);
      MulMono(base, 7000, n);
      assert 100 * (100 * n) == 7000 * n + 30 * (100 * n);
      RoundDivBetween(base * n + 30 * TrustSum(inbound), 100 * n, 0, 100);
    }
  }

  /** With every factor and trust level in [0, 100], so is every score. */
  lemma ScoresInRange(f: Factors, connections: seq<CommunityConnection>, userId: string)
    requires FactorsInRange(f) && TrustInRange(connections)
    ensures 0 <= TraditionalScore(f) <= 100
    ensures 0 <= CommunityScore(f, connections, userId) <= 100
    ensures 0 <= BehaviorScore(f) <= 100
    ensures 0 <= FinalScore(TraditionalScore(f), CommunityScore(f, connections, userId), BehaviorScore(f)) <= 100
  {
    var c := CommunityScore(f, connections, userId);
    CommunityScoreRange(f, connections, userId);
    SubScoresBetween(f, TraditionalScore(f), c, BehaviorScore(f));
  }

  // ---------------------------------------------------------------------------
  // Score records

  /** The store of score records and of the trust graph. */
  datatype CreditStore = CreditStore(scores: seq<CreditScore>, connections: seq<CommunityConnection>)

  /** The generated id and the random initial factors of a record that
      `getCreditScore` may have to create. */
  datatype Seed = Seed(id: string, factors: Factors)

  /** A record whose four scores are those its factors and the trust graph give. */
  predicate UpToDate(cs: CreditScore, connections: seq<CommunityConnection>)
  {
    && cs.traditionalScore == TraditionalScore(cs.factors)
    && cs.communityScore == CommunityScore(cs.factors, connections, cs.userId)
    && cs.behaviorScore == BehaviorScore(cs.factors)
    && cs.finalScore == FinalScore(cs.traditionalScore, cs.communityScore, cs.behaviorScore)
  }

  /** Recomputes the four scores of a record and stamps it. */
  function Refreshed(cs: CreditScore, connections: seq<CommunityConnection>, now: Timestamp): (r: CreditScore)
    ensures UpToDate(r, connections)
    ensures r.id == cs.id && r.userId == cs.userId && r.factors == cs.factors && r.lastUpdated == now
  {
    var t := TraditionalScore(cs.factors);
    var c := CommunityScore(cs.factors, connections, cs.userId);
    var b := BehaviorScore(cs.factors);
    cs.(traditionalScore := t, communityScore := c, behaviorScore := b,
        finalScore := FinalScore(t, c, b), lastUpdated := now)
  }

  /** `calculateInitialScore`, with the random factors supplied by the seed. */
  function InitialScore(userId: string, seed: Seed, connections: seq<CommunityConnection>, now: Timestamp): (r: CreditScore)
    ensures r.id == seed.id && r.userId == userId && r.factors == seed.factors && r.lastUpdated == now
    ensures UpToDate(r, connections)
  {
    Refreshed(CreditScore(seed.id, userId, 0, 0, 0, 0, now, seed.factors), connections, now)
  }

  /** The position of the first record of `userId`, if any (`Array.find`). */
  function IndexOf(scores: seq<CreditScore>, userId: string): (r: Option<nat>)
    ensures r.Some? ==> r.value < |scores| && scores[r.value].userId == userId
    ensures r.Some? ==> forall j :: 0 <= j < r.value ==> scores[j].userId != userId
    ensures r.None? <==> forall j :: 0 <= j < |scores| ==> scores[j].userId != userId
  {
    FindIndex(scores, (cs: CreditScore) => cs.userId == userId)
  }

  /** `getCreditScore`: the user's record, created and appended on first use. */
  function GetCreditScore(store: CreditStore, userId: string, seed: Seed, now: Timestamp): (r: (CreditStore, CreditScore))
    ensures r.1.userId == userId
    ensures r.0.connections == store.connections
    ensures IndexOf(store.scores, userId).Some? ==> r.0 == store && r.1 == store.scores[IndexOf(store.scores, userId).value]
    ensures IndexOf(store.scores, userId).None? ==>
              r.0.scores == store.scores + [r.1] && r.1 == InitialScore(userId, seed, store.connections, now)
  {
    match IndexOf(store.scores, userId)
    case Some(i) => (store, store.scores[i])
    case None =>
      var cs := InitialScore(userId, seed, store.connections, now);
      (store.(scores := store.scores + [cs]), cs)
  }

  /** After the first call, later calls return the same record and change nothing. */
  lemma GetCreditScoreIdempotent(store: CreditStore, userId: string, seed: Seed, seed': Seed, now: Timestamp, now': Timestamp)
    ensures var (store1, cs1) := GetCreditScore(store, userId, seed, now);
      GetCreditScore(store1, userId, seed', now') == (store1, cs1)
  {
    var (store1, cs1) := GetCreditScore(store, userId, seed, now);
    if IndexOf(store.scores, userId).None? {
      var i := |store.scores|;
      assert store1.scores[i].userId == userId;
      assert forall j :: 0 <= j < i ==> store1.scores[j] == store.scores[j];
    }
  }

  // ---------------------------------------------------------------------------
  // Score updates

  /** The `transactionData` argument of `updateScore`: its `type` and `status`. */
  datatype ScoreEvent = ScoreEvent(kind: string, status: Option<string>)

  predicate CompletedTransfer(e: ScoreEvent)
  {
    e.kind == "transfer" && e.status == Some("completed")
  }

  /** The factor changes of `updateScore`: a completed transfer raises payment
      history by 5 and transaction patterns by 3, each capped at 100; every
      other event leaves the factors alone. */
  function Nudged(f: Factors, e: ScoreEvent): (r: Factors)
    ensures !CompletedTransfer(e) ==> r == f
    ensures r.creditUtilization == f.creditUtilization && r.creditHistory == f.creditHistory
    ensures r.communityTrust == f.communityTrust && r.socialConnections == f.socialConnections
    ensures CompletedTransfer(e) && f.paymentHistory <= 95 ==> r.paymentHistory == f.paymentHistory + 5
    ensures CompletedTransfer(e) && f.paymentHistory >= 95 ==> r.paymentHistory == 100
    ensures CompletedTransfer(e) && f.transactionPatterns <= 97 ==> r.transactionPatterns == f.transactionPatterns + 3
    ensures CompletedTransfer(e) && f.transactionPatterns >= 97 ==> r.transactionPatterns == 100
  {
    if CompletedTransfer(e) then
      f.(paymentHistory := Min(f.paymentHistory + 5, 100),
         transactionPatterns := Min(f.transactionPatterns + 3, 100))
    else f
  }

  /** Nudging never takes a factor out of [0, 100] and never lowers one. */
  lemma NudgedInRange(f: Factors, e: ScoreEvent)
    requires FactorsInRange(f)
    ensures FactorsInRange(Nudged(f, e))
    ensures Nudged(f, e).paymentHistory >= f.paymentHistory
    ensures Nudged(f, e).transactionPatterns >= f.transactionPatterns
  {
  }

  /** Where `updateScore` writes the user's record: over the first existing
      one, or at the end. */
  function Slot(scores: seq<CreditScore>, userId: string): (r: nat)
    ensures r <= |scores|
    ensures r < |scores| ==> scores[r].userId == userId
  {
    match IndexOf(scores, userId)
    case Some(i) => i
    case None => |scores|
  }

  /** `updateScore`: fetches (or creates) the user's record, applies the
      event to its factors, recomputes all four scores and stores the record
      back in place. */
  function UpdateScore(store: CreditStore, userId: string, e: ScoreEvent, seed: Seed, now: Timestamp): (r: (CreditStore, CreditScore))
    ensures var prior := GetCreditScore(store, userId, seed, now).1;
      && r.1.id == prior.id && r.1.userId == userId && r.1.lastUpdated == now
      && r.1.factors == Nudged(prior.factors, e)
    ensures UpToDate(r.1, store.connections)
    ensures r.0.connections == store.connections
    ensures |r.0.scores| == |GetCreditScore(store, userId, seed, now).0.scores|
    ensures var k := Slot(store.scores, userId);
      && k < |r.0.scores| && r.0.scores[k] == r.1
      && forall j :: 0 <= j < |store.scores| && j != k ==> r.0.scores[j] == store.scores[j]
  {
    match IndexOf(store.scores, userId)
    case Some(i) =>
      var cs := store.scores[i];
      var updated := Refreshed(cs.(factors := Nudged(cs.factors, e)), store.connections, now);
      (store.(scores := store.scores[i := updated]), updated)
    case None =>
      var cs := InitialScore(userId, seed, store.connections, now);
      var updated := Refreshed(cs.(factors := Nudged(cs.factors, e)), store.connections, now);
      (store.(scores := store.scores + [updated]), updated)
  }

  // ---------------------------------------------------------------------------
  // The trust graph

  /** `addCommunityConnection`: appends an unverified, unendorsed connection
      and refreshes the records of both ends. */
  function AddCommunityConnection(store: CreditStore, fromUserId: string, toUserId: string, trustLevel: int,
                                  id: string, fromSeed: Seed, toSeed: Seed, now: Timestamp): (r: (CreditStore, CommunityConnection))
    ensures r.0.connections == store.connections + [r.1]
    ensures r.1 == CommunityConnection(id, fromUserId, toUserId, trustLevel, 0, false, now)
    ensures |store.scores| <= |r.0.scores| <= |store.scores| + 2
    ensures forall j :: 0 <= j < |store.scores| && store.scores[j].userId != fromUserId && store.scores[j].userId != toUserId
              ==> r.0.scores[j] == store.scores[j]
    ensures var k := Slot(store.scores, fromUserId);
      var prior := GetCreditScore(store, fromUserId, fromSeed, now).1;
      && k < |r.0.scores| && r.0.scores[k].userId == fromUserId
      && r.0.scores[k].id == prior.id && r.0.scores[k].factors == prior.factors
      && r.0.scores[k].lastUpdated == now && UpToDate(r.0.scores[k], r.0.connections)
    ensures var k := Slot(r.0.scores, toUserId);
      var prior := GetCreditScore(store, toUserId, if fromUserId == toUserId then fromSeed else toSeed, now).1;
      && k < |r.0.scores|
      && r.0.scores[k].id == prior.id && r.0.scores[k].factors == prior.factors
      && r.0.scores[k].lastUpdated == now && UpToDate(r.0.scores[k], r.0.connections)
  {
    var connection := CommunityConnection(id, fromUserId, toUserId, trustLevel, 0, false, now);
    var store1 := store.(connections := store.connections + [connection]);
    var (store2, _) := UpdateScore(store1, fromUserId, ScoreEvent("community_connection", None), fromSeed, now);
    var (store3, _) := UpdateScore(store2, toUserId, ScoreEvent("community_connection", None), toSeed, now);
    ConnectionKeepsIdentity(store, store1, fromUserId, toUserId, fromSeed, toSeed, now);
    (store3, connection)
  }

  /** What refreshing both ends after a new connection does to the records:
      each end's first record keeps its id and factors and is stamped and up
      to date; the store grows by at most two; other users' records stay. */
  lemma ConnectionKeepsIdentity(store: CreditStore, store1: CreditStore, fromUserId: string, toUserId: string,
                                fromSeed: Seed, toSeed: Seed, now: Timestamp)
    requires store1.scores == store.scores
    ensures var e := ScoreEvent("community_connection", None);
      var store2 := UpdateScore(store1, fromUserId, e, fromSeed, now).0;
      var store3 := UpdateScore(store2, toUserId, e, toSeed, now).0;
      var kf := Slot(store.scores, fromUserId);
      var kt := Slot(store3.scores, toUserId);
      var priorFrom := GetCreditScore(store, fromUserId, fromSeed, now).1;
      var priorTo := GetCreditScore(store, toUserId, if fromUserId == toUserId then fromSeed else toSeed, now).1;
      && store3.connections == store1.connections
      && |store.scores| <= |store3.scores| <= |store.scores| + 2
      && (forall j :: 0 <= j < |store.scores| && store.scores[j].userId != fromUserId && store.scores[j].userId != toUserId
            ==> store3.scores[j] == store.scores[j])
      && kf < |store3.scores| && store3.scores[kf].userId == fromUserId
      && store3.scores[kf].id == priorFrom.id && store3.scores[kf].factors == priorFrom.factors
      && store3.scores[kf].lastUpdated == now && UpToDate(store3.scores[kf], store3.connections)
      && kt < |store3.scores|
      && store3.scores[kt].id == priorTo.id && store3.scores[kt].factors == priorTo.factors
      && store3.scores[kt].lastUpdated == now && UpToDate(store3.scores[kt], store3.connections)
  {
    var e := ScoreEvent("community_connection", None);
    var (store2, fromRecord) := UpdateScore(store1, fromUserId, e, fromSeed, now);
    var (store3, toRecord) := UpdateScore(store2, toUserId, e, toSeed, now);
    UpdateFindsOwn(store1, fromUserId, e, fromSeed, now);
    UpdateFindsOwn(store2, toUserId, e, toSeed, now);
    UpdateFrame(store1, fromUserId, e, fromSeed, now);
    UpdateFrame(store2, toUserId, e, toSeed, now);
    if fromUserId != toUserId {
      UpdateKeepsOthers(store1, fromUserId, toUserId, e, fromSeed, now);
      UpdateKeepsOthers(store2, toUserId, fromUserId, e, toSeed, now);
    }
  }

  /** An update keeps the connections, grows the store by at most one record
      and changes no record of another user. */
  lemma UpdateFrame(store: CreditStore, userId: string, e: ScoreEvent, seed: Seed, now: Timestamp)
    ensures var store' := UpdateScore(store, userId, e, seed, now).0;
      && store'.connections == store.connections
      && |store.scores| <= |store'.scores| <= |store.scores| + 1
      && forall j :: 0 <= j < |store.scores| && store.scores[j].userId != userId ==> store'.scores[j] == store.scores[j]
  {
  }

  /** After an update the user's first record is the updated one, at the
      same slot, and it keeps the id and, for an event other than a
      completed transfer, the factors of the record it replaced. */
  lemma UpdateFindsOwn(store: CreditStore, userId: string, e: ScoreEvent, seed: Seed, now: Timestamp)
    ensures var (store', cs) := UpdateScore(store, userId, e, seed, now);
      && Slot(store'.scores, userId) == Slot(store.scores, userId) < |store'.scores|
      && store'.scores[Slot(store.scores, userId)] == cs
      && cs.id == GetCreditScore(store, userId, seed, now).1.id
      && (!CompletedTransfer(e) ==> cs.factors == GetCreditScore(store, userId, seed, now).1.factors)
  {
    var (store', cs) := UpdateScore(store, userId, e, seed, now);
    var k := Slot(store.scores, userId);
    assert forall j :: 0 <= j < k ==> store'.scores[j] == store.scores[j];
    assert IndexOf(store'.scores, userId) == Some(k);
  }

  /** An update of one user leaves another user's first record where it was. */
  lemma UpdateKeepsOthers(store: CreditStore, userId: string, other: string, e: ScoreEvent, seed: Seed, now: Timestamp)
    requires userId != other
    ensures var store' := UpdateScore(store, userId, e, seed, now).0;
      && IndexOf(store'.scores, other) == IndexOf(store.scores, other)
      && (IndexOf(store.scores, other).Some? ==>
            store'.scores[IndexOf(store.scores, other).value] == store.scores[IndexOf(store.scores, other).value])
  {
    var (store', cs) := UpdateScore(store, userId, e, seed, now);
    var k := Slot(store.scores, userId);
    UpdateFrame(store, userId, e, seed, now);
    assert store'.scores == Written(store.scores, k, cs);
    IndexOfAfterWrite(store.scores, k, cs, other);
  }

  /** A record written over slot `k`, or appended when `k` is the end. */
  function Written(scores: seq<CreditScore>, k: nat, cs: CreditScore): (r: seq<CreditScore>)
    requires k <= |scores|
    ensures |r| == if k < |scores| then |scores| else |scores| + 1
    ensures r[k] == cs
    ensures forall j :: 0 <= j < |scores| && j != k ==> r[j] == scores[j]
  {
    if k < |scores| then scores[k := cs] else scores + [cs]
  }

  /** Writing another user's record does not move a user's first record. */
  lemma IndexOfAfterWrite(scores: seq<CreditScore>, k: nat, cs: CreditScore, other: string)
    requires k <= |scores| && cs.userId != other
    requires k < |scores| ==> scores[k].userId == cs.userId
    ensures IndexOf(Written(scores, k, cs), other) == IndexOf(scores, other)
    ensures IndexOf(scores, other).Some? ==>
      Written(scores, k, cs)[IndexOf(scores, other).value] == scores[IndexOf(scores, other).value]
  {
    var w := Written(scores, k, cs);
    match IndexOf(scores, other)
    case Some(i) =>
      assert w[i] == scores[i];
      var m := IndexOf(w, other).value;
      assert m == k || w[m] == scores[m];
    case None =>
      assert forall j :: 0 <= j < |w| ==> j == k || w[j] == scores[j];
  }

  function Endorsed(c: CommunityConnection): CommunityConnection
  {
    c.(endorsementCount := c.endorsementCount + 1, trustLevel := Min(c.trustLevel + 5, 100))
  }

  /** The connection changes of `endorseUser`: the first from-to connection
      gains an endorsement and 5 trust, capped at 100; nothing else changes. */
  function EndorseConnections(connections: seq<CommunityConnection>, fromUserId: string, toUserId: string): (r: seq<CommunityConnection>)
    ensures |r| == |connections|
    ensures forall j :: 0 <= j < |r| && !(connections[j].fromUserId == fromUserId && connections[j].toUserId == toUserId)
              ==> r[j] == connections[j]
    ensures forall j, k :: 0 <= j < k < |r| && connections[j].fromUserId == fromUserId && connections[j].toUserId == toUserId
              ==> r[k] == connections[k]
    ensures forall j :: 0 <= j < |r| && r[j] != connections[j] ==> r[j] == Endorsed(connections[j])
    ensures forall j :: 0 <= j < |r| ==>
              (r[j].id == connections[j].id && r[j].fromUserId == connections[j].fromUserId
               && r[j].toUserId == connections[j].toUserId)
  {
    match FindIndex(connections, (c: CommunityConnection) => c.fromUserId == fromUserId && c.toUserId == toUserId)
    case None => connections
    case Some(j) => connections[j := Endorsed(connections[j])]
  }

  /** The first from-to connection is the one endorsed. */
  lemma EndorseConnectionsFirst(connections: seq<CommunityConnection>, fromUserId: string, toUserId: string, j: nat)
    requires j < |connections|
    requires connections[j].fromUserId == fromUserId && connections[j].toUserId == toUserId
    requires forall k :: 0 <= k < j ==> !(connections[k].fromUserId == fromUserId && connections[k].toUserId == toUserId)
    ensures EndorseConnections(connections, fromUserId, toUserId)[j] == Endorsed(connections[j])
  {
  }

  /** `endorseUser`: endorses the connection, then refreshes the endorsed
      user's record. */
  function EndorseUser(store: CreditStore, fromUserId: string, toUserId: string, seed: Seed, now: Timestamp): (r: CreditStore)
    ensures r.connections == EndorseConnections(store.connections, fromUserId, toUserId)
    ensures |store.scores| <= |r.scores| <= |store.scores| + 1
    ensures forall j :: 0 <= j < |store.scores| && store.scores[j].userId != toUserId ==> r.scores[j] == store.scores[j]
    ensures var k := Slot(r.scores, toUserId);
      var prior := GetCreditScore(store, toUserId, seed, now).1;
      && k < |r.scores| && r.scores[k].lastUpdated == now && UpToDate(r.scores[k], r.connections)
      && r.scores[k].id == prior.id && r.scores[k].factors == prior.factors
  {
    var store1 := store.(connections := EndorseConnections(store.connections, fromUserId, toUserId));
    UpdateScore(store1, toUserId, ScoreEvent("endorsement", None), seed, now).0
  }

  // ---------------------------------------------------------------------------
  // The store invariant: one record per user, every record up to date

  predicate UniqueUsers(scores: seq<CreditScore>)
  {
    forall i, j :: 0 <= i < j < |scores| ==> scores[i].userId != scores[j].userId
  }

  /** Every record up to date, except possibly that of `stale`. */
  predicate UpToDateExcept(store: CreditStore, stale: Option<string>)
  {
    forall i :: 0 <= i < |store.scores| && Some(store.scores[i].userId) != stale ==>
      UpToDate(store.scores[i], store.connections)
  }

  predicate Consistent(store: CreditStore)
  {
    UniqueUsers(store.scores) && UpToDateExcept(store, None)
  }

  lemma GetCreditScoreConsistent(store: CreditStore, userId: string, seed: Seed, now: Timestamp, stale: Option<string>)
    requires UniqueUsers(store.scores) && UpToDateExcept(store, stale)
    ensures var store1 := GetCreditScore(store, userId, seed, now).0;
      UniqueUsers(store1.scores) && UpToDateExcept(store1, stale)
  {
  }

  /** Updating a user's record brings it up to date and leaves every other
      record as it was. */
  lemma UpdateScoreConsistent(store: CreditStore, userId: string, e: ScoreEvent, seed: Seed, now: Timestamp, stale: Option<string>)
    requires UniqueUsers(store.scores) && UpToDateExcept(store, stale)
    ensures var store1 := UpdateScore(store, userId, e, seed, now).0;
      UniqueUsers(store1.scores) && UpToDateExcept(store1, if stale == Some(userId) then None else stale)
  {
    var (store1, cs) := UpdateScore(store, userId, e, seed, now);
    var k := Slot(store.scores, userId);
    forall i | 0 <= i < |store1.scores|
      ensures store1.scores[i].userId == (if i < |store.scores| then store.scores[i].userId else userId)
    {
    }
  }

  /** Appending a connection only changes the inbound list of its target. */
  lemma InboundAppend(connections: seq<CommunityConnection>, c: CommunityConnection, userId: string)
    requires c.toUserId != userId
    ensures Inbound(connections + [c], userId) == Inbound(connections, userId)
  {
    FilterAppend(connections, [c], ToUser(userId));
    assert Filter([c], ToUser(userId)) == [];
  }

  lemma AddCommunityConnectionConsistent(store: CreditStore, fromUserId: string, toUserId: string, trustLevel: int,
                                         id: string, fromSeed: Seed, toSeed: Seed, now: Timestamp)
    requires Consistent(store)
    ensures Consistent(AddCommunityConnection(store, fromUserId, toUserId, trustLevel, id, fromSeed, toSeed, now).0)
  {
    var connection := CommunityConnection(id, fromUserId, toUserId, trustLevel, 0, false, now);
    var store1 := store.(connections := store.connections + [connection]);
    forall i | 0 <= i < |store1.scores| && Some(store1.scores[i].userId) != Some(toUserId)
      ensures UpToDate(store1.scores[i], store1.connections)
    {
      InboundAppend(store.connections, connection, store1.scores[i].userId);
    }
    var e := ScoreEvent("community_connection", None);
    UpdateScoreConsistent(store1, fromUserId, e, fromSeed, now, Some(toUserId));
    var store2 := UpdateScore(store1, fromUserId, e, fromSeed, now).0;
    UpdateScoreConsistent(store2, toUserId, e, toSeed, now, if fromUserId == toUserId then None else Some(toUserId));
  }

  /** Endorsing only changes the inbound list of the endorsed user. */
  lemma EndorseKeepsOtherInbound(connections: seq<CommunityConnection>, fromUserId: string, toUserId: string, userId: string)
    requires userId != toUserId
    ensures Inbound(EndorseConnections(connections, fromUserId, toUserId), userId) == Inbound(connections, userId)
  {
    match FindIndex(connections, (c: CommunityConnection) => c.fromUserId == fromUserId && c.toUserId == toUserId)
    case None =>
    case Some(j) =>
      FilterUpdateDropped(connections, j, Endorsed(connections[j]), ToUser(userId));
  }

  lemma EndorseUserConsistent(store: CreditStore, fromUserId: string, toUserId: string, seed: Seed, now: Timestamp)
    requires Consistent(store)
    ensures Consistent(EndorseUser(store, fromUserId, toUserId, seed, now))
  {
    var store1 := store.(connections := EndorseConnections(store.connections, fromUserId, toUserId));
    forall i | 0 <= i < |store1.scores| && Some(store1.scores[i].userId) != Some(toUserId)
      ensures UpToDate(store1.scores[i], store1.connections)
    {
      EndorseKeepsOtherInbound(store.connections, fromUserId, toUserId, store1.scores[i].userId);
    }
    UpdateScoreConsistent(store1, toUserId, ScoreEvent("endorsement", None), seed, now, Some(toUserId));
  }

  // ---------------------------------------------------------------------------
  // Endorsement never lowers the endorsed user's community score

  /** Replacing an inbound connection by one with more trust keeps the number
      of inbound connections and shifts their trust sum by the difference. */
  lemma {:induction false} InboundReplace(connections: seq<CommunityConnection>, j: nat, x: CommunityConnection, userId: string)
    requires j < |connections|
    requires connections[j].toUserId == userId && x.toUserId == userId
    ensures |Inbound(connections[j := x], userId)| == |Inbound(connections, userId)|
    ensures TrustSum(Inbound(connections[j := x], userId))
         == TrustSum(Inbound(connections, userId)) - connections[j].trustLevel + x.trustLevel
  {
    var p := ToUser(userId);
    var s := connections;
    var head := [s[0]];
    assert s == head + s[1..];
    FilterAppend(head, s[1..], p);
    if j == 0 {
      assert s[j := x] == [x] + s[1..];
      FilterAppend([x], s[1..], p);
      assert Filter([x], p) == [x];
      assert Filter(head, p) == head;
      TrustSumAppend([x], Filter(s[1..], p));
      TrustSumAppend(head, Filter(s[1..], p));
    } else {
      var rest := s[1..][j - 1 := x];
      assert s[j := x] == head + rest;
      FilterAppend(head, rest, p);
      InboundReplace(s[1..], j - 1, x, userId);
      TrustSumAppend(Filter(head, p), Filter(rest, p));
      TrustSumAppend(Filter(head, p), Filter(s[1..], p));
    }
  }

  lemma {:induction false} TrustSumAppend(a: seq<CommunityConnection>, b: seq<CommunityConnection>)
    ensures TrustSum(a + b) == TrustSum(a) + TrustSum(b)
  {
    if |a| == 0 {
      assert a + b == b;
    } else {
      assert (a + b)[1..] == a[1..] + b;
      TrustSumAppend(a[1..], b);
    }
  }

  /** More inbound trust over as many connections never lowers the score. */
  lemma CommunityScoreMono(f: Factors, connections: seq<CommunityConnection>, connections': seq<CommunityConnection>, userId: string)
    requires |Inbound(connections', userId)| == |Inbound(connections, userId)|
    requires TrustSum(Inbound(connections', userId)) >= TrustSum(Inbound(connections, userId))
    ensures CommunityScore(f, connections', userId) >= CommunityScore(f, connections, userId)
  {
    var n := |Inbound(connections, userId)|;
    if n > 0 {
      var base := 40 * f.communityTrust + 30 * f.socialConnections;
      RoundDivMono(base * n + 30 * TrustSum(Inbound(connections, userId)),
                   base * n + 30 * TrustSum(Inbound(connections', userId)), 100 * n);
    }
  }

  /** With trust levels at most 100, endorsing never lowers the target's
      community score for any factors. */
  lemma EndorseRaisesCommunity(f: Factors, connections: seq<CommunityConnection>, fromUserId: string, toUserId: string)
    requires forall i :: 0 <= i < |connections| ==> connections[i].trustLevel <= 100
    ensures CommunityScore(f, EndorseConnections(connections, fromUserId, toUserId), toUserId)
         >= CommunityScore(f, connections, toUserId)
  {
    match FindIndex(connections, (c: CommunityConnection) => c.fromUserId == fromUserId && c.toUserId == toUserId)
    case None =>
    case Some(j) =>
      var x := Endorsed(connections[j]);
      assert EndorseConnections(connections, fromUserId, toUserId) == connections[j := x];
      InboundReplace(connections, j, x, toUserId);
      CommunityScoreMono(f, connections, connections[j := x], toUserId);
  }

  /** In a consistent store, `endorseUser` never lowers the stored community
      score of the endorsed user. */
  lemma EndorseUserRaisesStoredScore(store: CreditStore, fromUserId: string, toUserId: string, seed: Seed, now: Timestamp, i: nat)
    requires Consistent(store)
    requires forall k :: 0 <= k < |store.connections| ==> store.connections[k].trustLevel <= 100
    requires i < |store.scores| && store.scores[i].userId == toUserId
    ensures var store' := EndorseUser(store, fromUserId, toUserId, seed, now);
      i < |store'.scores| && store'.scores[i].communityScore >= store.scores[i].communityScore
  {
    var store' := EndorseUser(store, fromUserId, toUserId, seed, now);
    var connections := EndorseConnections(store.connections, fromUserId, toUserId);
    var store1 := store.(connections := connections);
    var (_, cs) := UpdateScore(store1, toUserId, ScoreEvent("endorsement", None), seed, now);
    assert IndexOf(store.scores, toUserId) == Some(i);
    assert store'.scores[i] == cs;
    EndorseRaisesCommunity(store.scores[i].factors, store.connections, fromUserId, toUserId);
  }
}

=== FILE: fraud_detection.dfy ===
/** The fraud-risk rule engine of `src/lib/fraudDetection.ts`: named factors
    from fixed rules, a name-keyed weighted average, fixed breakpoints for the
    level and the recommendation, a small alert store and batch analysis.
    The `Math.random()` draws are `Draws`, the clock's hour is an input. */
module FraudDetection {
  import opened Wrappers
  import opened Types
  import opened Seqs
  import opened Numeric

  /** The names the factor rules produce, and `Unlisted` for any other text.
      The weight table and the rule a factor belongs to are keyed on them. */
  datatype FactorName =
    | ValorAlto | ValorModerado | ValorBaixo
    | HorarioSuspeito | HorarioAtipico | HorarioNormal
    | LocalizacaoAtipica | LocalizacaoConhecida
    | DispositivoNovo | DispositivoConhecido
    | PadraoAtipico | PadraoNormal
    | Unlisted(text: string)

  /** The display text the source uses as the factor's name. */
  function NameText(n: FactorName): string
  {
    match n
    case ValorAlto => "Valor Alto"
    case ValorModerado => "Valor Moderado"
    case ValorBaixo => "Valor Baixo"
    case HorarioSuspeito => "Horário Suspeito"
    case HorarioAtipico => "Horário Atípico"
    case HorarioNormal => "Horário Normal"
    case LocalizacaoAtipica => "Localização Atípica"
    case LocalizacaoConhecida => "Localização Conhecida"
    case DispositivoNovo => "Dispositivo Novo"
    case DispositivoConhecido => "Dispositivo Conhecido"
    case PadraoAtipico => "Padrão Atípico"
    case PadraoNormal => "Padrão Normal"
    case Unlisted(t) => t
  }

  /** The description the rule attaches to each factor name. */
  function Describe(n: FactorName): string
  {
    match n
    case ValorAlto => "Transação acima de R$ 10.000"
    case ValorModerado => "Transação acima de R$ 5.000"
    case ValorBaixo => "Transação abaixo de R$ 5.000"
    case HorarioSuspeito => "Transação em horário noturno (00:00-06:00)"
    case HorarioAtipico => "Transação fora do horário comercial"
    case HorarioNormal => "Transação em horário comercial"
    case LocalizacaoAtipica => "Transação de localização não usual"
    case LocalizacaoConhecida => "Transação de localização conhecida"
    case DispositivoNovo => "Transação de dispositivo não reconhecido"
    case DispositivoConhecido => "Transação de dispositivo reconhecido"
    case PadraoAtipico => "Comportamento de transação atípico"
    case PadraoNormal => "Comportamento de transação normal"
    case Unlisted(_) => ""
  }

  datatype Factor = Factor(name: FactorName, score: int, description: string)

  datatype Recommendation = Approve | Review | Block

  datatype Analysis = Analysis(
    riskScore: int,
    riskLevel: Severity,
    factors: seq<Factor>,
    recommendation: Recommendation)

  /** The outcomes of the three `Math.random() > threshold` comparisons. A draw
      is only consulted when its factor is produced. */
  datatype Draws = Draws(unusualLocation: bool, newDevice: bool, unusualPattern: bool)

  /** R$ 10.000 and R$ 5.000 in cents. */
  const HighAmount: Cents := 1_000_000
  const ModerateAmount: Cents := 500_000

  // ---------------------------------------------------------------------------
  // Factor rules

  /** Which rule a factor name belongs to. */
  datatype Category = AmountRule | TimeRule | LocationRule | DeviceRule | PatternRule | OtherRule

  function CategoryOf(name: FactorName): Category
  {
    match name
    case ValorAlto | ValorModerado | ValorBaixo => AmountRule
    case HorarioSuspeito | HorarioAtipico | HorarioNormal => TimeRule
    case LocalizacaoAtipica | LocalizacaoConhecida => LocationRule
    case DispositivoNovo | DispositivoConhecido => DeviceRule
    case PadraoAtipico | PadraoNormal => PatternRule
    case Unlisted(_) => OtherRule
  }

  /** The amount bands: above R$ 10.000, above R$ 5.000, the rest. */
  function AmountFactor(amount: Cents): (f: Factor)
    ensures CategoryOf(f.name) == AmountRule
    ensures f.name == ValorAlto <==> amount > HighAmount
    ensures f.name == ValorBaixo <==> amount <= ModerateAmount
    ensures f.score in {10, 40, 80} && f.description == Describe(f.name)
    ensures f.score == 80 <==> f.name == ValorAlto
    ensures f.score == 10 <==> f.name == ValorBaixo
  {
    if amount > HighAmount then Factor(ValorAlto, 80, Describe(ValorAlto))
    else if amount > ModerateAmount then Factor(ValorModerado, 40, Describe(ValorModerado))
    else Factor(ValorBaixo, 10, Describe(ValorBaixo))
  }

  /** The hour bands: 0 to 6 is suspicious, 7, 8, 22 and 23 are atypical,
      the rest is normal. */
  function TimeFactor(hour: Hour): (f: Factor)
    ensures CategoryOf(f.name) == TimeRule
    ensures f.name == HorarioSuspeito <==> hour <= 6
    ensures f.name == HorarioAtipico <==> hour in {7, 8, 22, 23}
    ensures f.score in {5, 30, 60} && f.description == Describe(f.name)
    ensures f.score == 60 <==> f.name == HorarioSuspeito
    ensures f.score == 5 <==> f.name == HorarioNormal
  {
    if 0 <= hour <= 6 then Factor(HorarioSuspeito, 60, Describe(HorarioSuspeito))
    else if hour >= 22 || hour <= 8 then Factor(HorarioAtipico, 30, Describe(HorarioAtipico))
    else Factor(HorarioNormal, 5, Describe(HorarioNormal))
  }

  /** An unusual location scores 70, a known one 15. */
  function LocationFactor(unusual: bool): (f: Factor)
    ensures CategoryOf(f.name) == LocationRule
    ensures f.name == LocalizacaoAtipica <==> unusual
    ensures f.score in {15, 70} && (f.score == 70 <==> unusual) && f.description == Describe(f.name)
  {
    if unusual then Factor(LocalizacaoAtipica, 70, Describe(LocalizacaoAtipica))
    else Factor(LocalizacaoConhecida, 15, Describe(LocalizacaoConhecida))
  }

  /** A new device scores 50, a known one 10. */
  function DeviceFactor(isNew: bool): (f: Factor)
    ensures CategoryOf(f.name) == DeviceRule
    ensures f.name == DispositivoNovo <==> isNew
    ensures f.score in {10, 50} && (f.score == 50 <==> isNew) && f.description == Describe(f.name)
  {
    if isNew then Factor(DispositivoNovo, 50, Describe(DispositivoNovo))
    else Factor(DispositivoConhecido, 10, Describe(DispositivoConhecido))
  }

  /** An unusual pattern scores 45, a normal one 20. */
  function PatternFactor(unusual: bool): (f: Factor)
    ensures CategoryOf(f.name) == PatternRule
    ensures f.name == PadraoAtipico <==> unusual
    ensures f.score in {20, 45} && (f.score == 45 <==> unusual) && f.description == Describe(f.name)
  {
    if unusual then Factor(PadraoAtipico, 45, Describe(PadraoAtipico))
    else Factor(PadraoNormal, 20, Describe(PadraoNormal))
  }

  /** A larger amount never scores lower, and a later hour up to 21 never
      scores higher. */
  lemma FactorBandsMonotone(a: Cents, b: Cents, h: Hour, k: Hour)
    requires a <= b && h <= k <= 21
    ensures AmountFactor(a).score <= AmountFactor(b).score
    ensures TimeFactor(k).score <= TimeFactor(h).score
  {
  }

  /** The number of factors in `fs` produced by rule `c`. */
  function CountCategory(fs: seq<Factor>, c: Category): nat
  {
    if |fs| == 0 then 0
    else (if CategoryOf(fs[0].name) == c then 1 else 0) + CountCategory(fs[1..], c)
  }

  /** The one-element list `[f]` when `present`, else the empty list. */
  function Optional(present: bool, f: Factor): (r: seq<Factor>)
    ensures |r| == (if present then 1 else 0)
    ensures present ==> r[0] == f
  {
    if present then [f] else []
  }

  /** The factor list in the source's order: amount, time, the optional
      location and device factors, pattern. */
  function Assemble(a: Factor, t: Factor, hasLocation: bool, l: Factor, hasDevice: bool, d: Factor, p: Factor): (r: seq<Factor>)
    ensures |r| == 3 + (if hasLocation then 1 else 0) + (if hasDevice then 1 else 0)
    ensures r[0] == a && r[1] == t && r[|r| - 1] == p
  {
    [a, t] + Optional(hasLocation, l) + Optional(hasDevice, d) + [p]
  }

  /** `calculateRiskFactors`: amount, then time, then location and device when
      the transaction carries them, then pattern. */
  function RiskFactors(tx: Transaction, hour: Hour, draws: Draws): (r: seq<Factor>)
    ensures |r| == 3 + (if tx.location.Some? then 1 else 0) + (if tx.deviceInfo.Some? then 1 else 0)
    ensures r[0] == AmountFactor(tx.amount)
    ensures r[1] == TimeFactor(hour)
    ensures r[|r| - 1] == PatternFactor(draws.unusualPattern)
  {
    Assemble(AmountFactor(tx.amount), TimeFactor(hour),
             tx.location.Some?, LocationFactor(draws.unusualLocation),
             tx.deviceInfo.Some?, DeviceFactor(draws.newDevice),
             PatternFactor(draws.unusualPattern))
  }

  lemma {:induction false} CountCategoryAppend(a: seq<Factor>, b: seq<Factor>, c: Category)
    ensures CountCategory(a + b, c) == CountCategory(a, c) + CountCategory(b, c)
  {
    if |a| == 0 {
      assert a + b == b;
    } else {
      assert (a + b)[1..] == a[1..] + b;
      CountCategoryAppend(a[1..], b, c);
    }
  }

  lemma CountCategorySingle(f: Factor, c: Category)
    ensures CountCategory([f], c) == (if CategoryOf(f.name) == c then 1 else 0)
  {
    assert [f][1..] == [];
  }

  lemma CountCategoryOptional(present: bool, f: Factor, c: Category)
    ensures CountCategory(Optional(present, f), c) == (if present && CategoryOf(f.name) == c then 1 else 0)
  {
    if present {
      CountCategorySingle(f, c);
    }
  }

  lemma CountCategoryAssemble(a: Factor, t: Factor, hasLocation: bool, l: Factor, hasDevice: bool, d: Factor, p: Factor, c: Category)
    ensures CountCategory(Assemble(a, t, hasLocation, l, hasDevice, d, p), c) ==
            CountCategory([a], c) + CountCategory([t], c) + CountCategory(Optional(hasLocation, l), c)
            + CountCategory(Optional(hasDevice, d), c) + CountCategory([p], c)
  {
    var loc, dev := Optional(hasLocation, l), Optional(hasDevice, d);
    assert [a, t] == [a] + [t];
    CountCategoryAppend([a], [t], c);
    CountCategoryAppend([a, t], loc, c);
    CountCategoryAppend([a, t] + loc, dev, c);
    CountCategoryAppend([a, t] + loc + dev, [p], c);
  }

  /** Exactly one amount, one time and one pattern factor is produced; a
      location factor exactly when the transaction has a location, and a
      device factor exactly when it has device information. */
  lemma RiskFactorsPerRule(tx: Transaction, hour: Hour, draws: Draws, c: Category)
    ensures CountCategory(RiskFactors(tx, hour, draws), c) ==
      match c
      case AmountRule | TimeRule | PatternRule => 1
      case LocationRule => if tx.location.Some? then 1 else 0
      case DeviceRule => if tx.deviceInfo.Some? then 1 else 0
      case OtherRule => 0
  {
    var a, t, p := AmountFactor(tx.amount), TimeFactor(hour), PatternFactor(draws.unusualPattern);
    var l, d := LocationFactor(draws.unusualLocation), DeviceFactor(draws.newDevice);
    CountCategoryAssemble(a, t, tx.location.Some?, l, tx.deviceInfo.Some?, d, p, c);
    CountCategorySingle(a, c);
    CountCategorySingle(t, c);
    CountCategorySingle(p, c);
    CountCategoryOptional(tx.location.Some?, l, c);
    CountCategoryOptional(tx.deviceInfo.Some?, d, c);
  }

  // ---------------------------------------------------------------------------
  // Combination

  /** The weight table of `calculateRiskScore`, in hundredths. The source
      looks the table up by text, so an `Unlisted` name is weighed by its
      text. */
  function Weight(name: FactorName): (w: nat)
    ensures 5 <= w <= 30
  {
    match name
    case ValorAlto => 30
    case ValorModerado => 20
    case ValorBaixo => 10
    case HorarioSuspeito => 20
    case HorarioAtipico => 10
    case HorarioNormal => 5
    case LocalizacaoAtipica => 25
    case LocalizacaoConhecida => 10
    case DispositivoNovo => 20
    case DispositivoConhecido => 5
    case PadraoAtipico => 15
    case PadraoNormal => 10
    case Unlisted(t) => TextWeight(t)
  }

  /** The table looked up by a name's text: a listed text weighs what its
      name weighs, any other text 0.1. */
  function TextWeight(t: string): (w: nat)
    ensures 5 <= w <= 30
  {
    if t == "Valor Alto" then 30
    else if t == "Valor Moderado" then 20
    else if t == "Valor Baixo" then 10
    else if t == "Horário Suspeito" then 20
    else if t == "Horário Atípico" then 10
    else if t == "Horário Normal" then 5
    else if t == "Localização Atípica" then 25
    else if t == "Localização Conhecida" then 10
    else if t == "Dispositivo Novo" then 20
    else if t == "Dispositivo Conhecido" then 5
    else if t == "Padrão Atípico" then 15
    else if t == "Padrão Normal" then 10
    else 10
  }

  /** The table is keyed on the text alone: two names with the same text
      weigh the same, whichever constructor carries the text. */
  lemma WeightKeyedOnText(a: FactorName, b: FactorName)
    requires NameText(a) == NameText(b)
    ensures Weight(a) == Weight(b)
  {
  }

  /** The accumulated `totalScore`, in hundredths. */
  function WeightedSum(fs: seq<Factor>): int
  {
    if |fs| == 0 then 0 else fs[0].score * Weight(fs[0].name) + WeightedSum(fs[1..])
  }

  /** The accumulated `totalWeight`, in hundredths. */
  function TotalWeight(fs: seq<Factor>): nat
  {
    if |fs| == 0 then 0 else Weight(fs[0].name) + TotalWeight(fs[1..])
  }

  function MinScore(fs: seq<Factor>): int
    requires |fs| > 0
  {
    if |fs| == 1 then fs[0].score else Min(fs[0].score, MinScore(fs[1..]))
  }

  function MaxScore(fs: seq<Factor>): int
    requires |fs| > 0
  {
    if |fs| == 1 then fs[0].score else Max(fs[0].score, MaxScore(fs[1..]))
  }

  /** A weighted sum lies between the smallest and the largest score, each
      times the total weight. */
  lemma {:induction false} WeightedSumBetween(fs: seq<Factor>)
    requires |fs| > 0
    ensures MinScore(fs) * TotalWeight(fs) <= WeightedSum(fs) <= MaxScore(fs) * TotalWeight(fs)
  {
    if |fs| > 1 {
      var rest := fs[1..];
      WeightedSumBetween(rest);
      StepBetween(fs[0].score, Weight(fs[0].name), MinScore(rest), MaxScore(rest),
                  WeightedSum(rest), TotalWeight(rest));
    }
  }

  /** The inductive step of WeightedSumBetween, as pure arithmetic. */
  lemma StepBetween(s: int, w: nat, lo: int, hi: int, ws: int, tw: nat)
    requires lo * tw <= ws <= hi * tw
    ensures Min(s, lo) * (w + tw) <= s * w + ws <= Max(s, hi) * (w + tw)
  {
    var m, n := Min(s, lo), Max(s, hi);
    MulMono(m, s, w);
    MulMono(s, n, w);
    MulMono(m, lo, tw);
    MulMono(hi, n, tw);
    assert m * (w + tw) == m * w + m * tw;
    assert n * (w + tw) == n * w + n * tw;
  }

  lemma {:induction false} TotalWeightPositive(fs: seq<Factor>)
    ensures |fs| > 0 <==> TotalWeight(fs) > 0
  {
  }

  /** The nearest-integer bound of `RoundDiv`, with the divisor factored out. */
  lemma NearestScaled(n: int, d: int)
    requires d > 0
    ensures var r := RoundDiv(n, d); d * (2 * r - 1) <= 2 * n < d * (2 * r + 1)
  {
    var r := RoundDiv(n, d);
    RoundDivNearest(n, d);
    assert d * (2 * r - 1) == 2 * d * r - d;
    assert d * (2 * r + 1) == 2 * d * r + d;
  }

  /** `calculateRiskScore`: the rounded weighted average of the factor scores,
      or 0 for no factors. */
  function RiskScore(fs: seq<Factor>): (r: int)
    ensures |fs| == 0 ==> r == 0
    ensures |fs| > 0 ==> MinScore(fs) <= r <= MaxScore(fs)
    ensures TotalWeight(fs) > 0 ==>
      TotalWeight(fs) * (2 * r - 1) <= 2 * WeightedSum(fs) < TotalWeight(fs) * (2 * r + 1)
  {
    if TotalWeight(fs) > 0 then
      WeightedSumBetween(fs);
      RoundDivBetween(WeightedSum(fs), TotalWeight(fs), MinScore(fs), MaxScore(fs));
      NearestScaled(WeightedSum(fs), TotalWeight(fs));
      RoundDiv(WeightedSum(fs), TotalWeight(fs))
    else 0
  }

  /** `getRiskLevel`. */
  function RiskLevel(riskScore: int): (r: Severity)
    ensures r == Critical <==> riskScore >= 80
    ensures r == High <==> 60 <= riskScore < 80
    ensures r == Medium <==> 30 <= riskScore < 60
    ensures r == Low <==> riskScore < 30
  {
    if riskScore >= 80 then Critical
    else if riskScore >= 60 then High
    else if riskScore >= 30 then Medium
    else Low
  }

  /** `getRecommendation`; the factor list it also receives is unused. */
  function RecommendationFor(riskScore: int): (r: Recommendation)
    ensures r == Block <==> riskScore >= 80
    ensures r == Review <==> 50 <= riskScore < 80
    ensures r == Approve <==> riskScore < 50
  {
    if riskScore >= 80 then Block
    else if riskScore >= 50 then Review
    else Approve
  }

  function RecommendationRank(r: Recommendation): nat
  {
    match r
    case Approve => 0
    case Review => 1
    case Block => 2
  }

  /** A higher risk score never receives a lower level or a milder recommendation. */
  lemma LevelAndRecommendationMonotone(a: int, b: int)
    requires a <= b
    ensures SeverityRank(RiskLevel(a)) <= SeverityRank(RiskLevel(b))
    ensures RecommendationRank(RecommendationFor(a)) <= RecommendationRank(RecommendationFor(b))
  {
  }

  /** The two breakpoint tables agree: blocking happens exactly at the critical
      level, and review only at medium or high. */
  lemma RecommendationAgreesWithLevel(riskScore: int)
    ensures RecommendationFor(riskScore) == Block <==> RiskLevel(riskScore) == Critical
    ensures RecommendationFor(riskScore) == Review ==> RiskLevel(riskScore) in {Medium, High}
    ensures RiskLevel(riskScore) == Low ==> RecommendationFor(riskScore) == Approve
  {
  }

  // ---------------------------------------------------------------------------
  // Whole analysis

  lemma {:induction false} WeightedSumAppend(a: seq<Factor>, b: seq<Factor>)
    ensures WeightedSum(a + b) == WeightedSum(a) + WeightedSum(b)
    ensures TotalWeight(a + b) == TotalWeight(a) + TotalWeight(b)
  {
    if |a| == 0 {
      assert a + b == b;
    } else {
      assert (a + b)[1..] == a[1..] + b;
      WeightedSumAppend(a[1..], b);
    }
  }

  /** A factor scoring from 5 to 80 with weight at most `maxWeight`, whose
      weighted score sits at least `slack` below 80 times its weight. */
  predicate Bounded(f: Factor, slack: int, maxWeight: int)
  {
    var w := Weight(f.name);
    && 5 * w <= f.score * w
    && f.score * w + slack <= 80 * w
    && w <= maxWeight
  }

  lemma AmountBounded(amount: Cents)
    ensures Bounded(AmountFactor(amount), 0, 30)
  {
  }

  lemma TimeBounded(hour: Hour)
    ensures Bounded(TimeFactor(hour), 375, 20)
  {
  }

  lemma LocationBounded(unusual: bool)
    ensures Bounded(LocationFactor(unusual), 0, 25)
  {
  }

  lemma DeviceBounded(isNew: bool)
    ensures Bounded(DeviceFactor(isNew), 0, 20)
  {
  }

  lemma PatternBounded(unusual: bool)
    ensures Bounded(PatternFactor(unusual), 0, 15)
  {
  }

  lemma WeightedSumSingle(f: Factor)
    ensures WeightedSum([f]) == f.score * Weight(f.name)
    ensures TotalWeight([f]) == Weight(f.name)
  {
    assert [f][1..] == [];
  }

  lemma WeightedSumOptional(present: bool, f: Factor)
    ensures WeightedSum(Optional(present, f)) == (if present then f.score * Weight(f.name) else 0)
    ensures TotalWeight(Optional(present, f)) == (if present then Weight(f.name) else 0)
  {
    if present {
      WeightedSumSingle(f);
    }
  }

  lemma WeightedSumAssemble(a: Factor, t: Factor, hasLocation: bool, l: Factor, hasDevice: bool, d: Factor, p: Factor)
    ensures var fs := Assemble(a, t, hasLocation, l, hasDevice, d, p);
      && WeightedSum(fs) == a.score * Weight(a.name) + t.score * Weight(t.name)
           + (if hasLocation then l.score * Weight(l.name) else 0)
           + (if hasDevice then d.score * Weight(d.name) else 0)
           + p.score * Weight(p.name)
      && TotalWeight(fs) == Weight(a.name) + Weight(t.name)
           + (if hasLocation then Weight(l.name) else 0)
           + (if hasDevice then Weight(d.name) else 0)
           + Weight(p.name)
  {
    var loc, dev := Optional(hasLocation, l), Optional(hasDevice, d);
    assert [a, t] == [a] + [t];
    WeightedSumAppend([a], [t]);
    WeightedSumAppend([a, t], loc);
    WeightedSumAppend([a, t] + loc, dev);
    WeightedSumAppend([a, t] + loc + dev, [p]);
    WeightedSumSingle(a);
    WeightedSumSingle(t);
    WeightedSumSingle(p);
    WeightedSumOptional(hasLocation, l);
    WeightedSumOptional(hasDevice, d);
  }

  /** The generated factors: each scores at most 80 and the time factor at
      most 60, so the weighted sum stays 375 hundredths below 80 times the
      total weight, which is at most 1.10. */
  lemma GeneratedWeights(tx: Transaction, hour: Hour, draws: Draws)
    ensures var fs := RiskFactors(tx, hour, draws);
      && 0 < TotalWeight(fs) <= 110
      && 5 * TotalWeight(fs) <= WeightedSum(fs)
      && WeightedSum(fs) + 375 <= 80 * TotalWeight(fs)
  {
    AmountBounded(tx.amount);
    TimeBounded(hour);
    LocationBounded(draws.unusualLocation);
    DeviceBounded(draws.newDevice);
    PatternBounded(draws.unusualPattern);
    AssembledBounds(AmountFactor(tx.amount), TimeFactor(hour),
                    tx.location.Some?, LocationFactor(draws.unusualLocation),
                    tx.deviceInfo.Some?, DeviceFactor(draws.newDevice),
                    PatternFactor(draws.unusualPattern));
  }

  /** Bounds on the parts carry over to the assembled list. */
  lemma AssembledBounds(a: Factor, t: Factor, hasLocation: bool, l: Factor, hasDevice: bool, d: Factor, p: Factor)
    requires Bounded(a, 0, 30) && Bounded(t, 375, 20) && Bounded(l, 0, 25)
    requires Bounded(d, 0, 20) && Bounded(p, 0, 15)
    ensures var fs := Assemble(a, t, hasLocation, l, hasDevice, d, p);
      && 0 < TotalWeight(fs) <= 110
      && 5 * TotalWeight(fs) <= WeightedSum(fs)
      && WeightedSum(fs) + 375 <= 80 * TotalWeight(fs)
  {
    WeightedSumAssemble(a, t, hasLocation, l, hasDevice, d, p);
  }

  /** `analyzeTransaction`. The time factor, always present, scores at most
      60 and no factor exceeds 80, so the rounded average is at most 79: the
      analysis is never `critical` and never recommends `block`. */
  function Analyze(tx: Transaction, hour: Hour, draws: Draws): (r: Analysis)
    ensures 5 <= r.riskScore <= 79
    ensures r.riskLevel != Critical && r.recommendation != Block
    ensures r.factors == RiskFactors(tx, hour, draws)
    ensures r.riskScore == RiskScore(r.factors)
    ensures r.riskLevel == RiskLevel(r.riskScore)
    ensures r.recommendation == RecommendationFor(r.riskScore)
  {
    var fs := RiskFactors(tx, hour, draws);
    var score := RiskScore(fs);
    GeneratedWeights(tx, hour, draws);
    ScoreBelowEighty(WeightedSum(fs), TotalWeight(fs));
    RoundDivMono(5 * TotalWeight(fs), WeightedSum(fs), TotalWeight(fs));
    RoundDivUnique(5 * TotalWeight(fs), TotalWeight(fs), 5);
    Analysis(score, RiskLevel(score), fs, RecommendationFor(score))
  }

  lemma ScoreBelowEighty(ws: int, tw: int)
    requires 0 < tw <= 110 && ws + 375 <= 80 * tw
    ensures RoundDiv(ws, tw) <= 79
  {
    var r := RoundDiv(ws, tw);
    RoundDivNearest(ws, tw);
    if r >= 80 {
      MulMono(80, r, 2 * tw);
    }
  }

  // ---------------------------------------------------------------------------
  // Alerts

  /** The fields of an alert the caller supplies (`Omit<FraudAlert, 'id' | 'createdAt'>`). */
  datatype NewAlert = NewAlert(
    userId: string,
    transactionId: Option<string>,
    alertType: AlertType,
    severity: Severity,
    description: string,
    isResolved: bool,
    resolvedAt: Option<Timestamp>)

  /** `createAlert`: appends the alert with the generated id and the current time. */
  function CreateAlert(alerts: seq<FraudAlert>, a: NewAlert, id: string, now: Timestamp): (r: (seq<FraudAlert>, FraudAlert))
    ensures r.0 == alerts + [r.1]
    ensures r.1.id == id && r.1.createdAt == now && r.1.userId == a.userId
    ensures r.1.severity == a.severity && r.1.alertType == a.alertType && r.1.isResolved == a.isResolved
    ensures r.1.description == a.description && r.1.transactionId == a.transactionId
    ensures r.1.resolvedAt == a.resolvedAt
  {
    var alert := FraudAlert(id, a.userId, a.transactionId, a.alertType, a.severity,
                            a.description, a.isResolved, now, a.resolvedAt);
    (alerts + [alert], alert)
  }

  /** `detectAnomalies`: the user's alerts in insertion order. */
  function DetectAnomalies(alerts: seq<FraudAlert>, userId: string): (r: seq<FraudAlert>)
    ensures forall i :: 0 <= i < |r| ==> r[i].userId == userId && r[i] in alerts
    ensures forall i :: 0 <= i < |alerts| && alerts[i].userId == userId ==> alerts[i] in r
  {
    Filter(alerts, (a: FraudAlert) => a.userId == userId)
  }

  /** A created alert shows up last among its user's alerts and nowhere else. */
  lemma CreateThenDetect(alerts: seq<FraudAlert>, a: NewAlert, id: string, now: Timestamp, userId: string)
    ensures var (alerts', alert) := CreateAlert(alerts, a, id, now);
      DetectAnomalies(alerts', userId)
      == DetectAnomalies(alerts, userId) + (if a.userId == userId then [alert] else [])
  {
    var (alerts', alert) := CreateAlert(alerts, a, id, now);
    FilterAppend(alerts, [alert], (x: FraudAlert) => x.userId == userId);
  }

  function Resolved(a: FraudAlert, now: Timestamp): FraudAlert
  {
    a.(isResolved := true, resolvedAt := Some(now))
  }

  /** `resolveAlert`: marks the first alert with that id resolved; an unknown
      id changes nothing. */
  function ResolveAlert(alerts: seq<FraudAlert>, alertId: string, now: Timestamp): (r: seq<FraudAlert>)
    ensures |r| == |alerts|
    ensures forall j :: 0 <= j < |r| && alerts[j].id != alertId ==> r[j] == alerts[j]
    ensures forall j, k :: 0 <= j < k < |r| && alerts[j].id == alertId ==> r[k] == alerts[k]
    ensures forall j :: 0 <= j < |r| && alerts[j].id == alertId && (forall k :: 0 <= k < j ==> alerts[k].id != alertId)
              ==> r[j] == Resolved(alerts[j], now)
    ensures forall j :: 0 <= j < |r| ==> r[j].id == alerts[j].id && r[j].userId == alerts[j].userId
    ensures forall j :: 0 <= j < |r| && alerts[j].isResolved ==> r[j].isResolved
  {
    match FindIndex(alerts, (a: FraudAlert) => a.id == alertId)
    case None => alerts
    case Some(i) => alerts[i := Resolved(alerts[i], now)]
  }

  // ---------------------------------------------------------------------------
  // Batch analysis

  /** The clock hour and random draws of one transaction's analysis. */
  datatype RiskContext = RiskContext(hour: Hour, draws: Draws)

  datatype RiskSummary = RiskSummary(totalTransactions: nat, suspiciousCount: nat, totalRiskScore: int)

  datatype BatchReport = BatchReport(suspiciousTransactions: seq<Transaction>, riskSummary: RiskSummary)

  /** The summary's average risk score: 0 for an empty batch, otherwise the
      exact quotient of the summed score by the batch size. */
  function AverageRiskScore(summary: RiskSummary): (r: real)
    ensures summary.totalTransactions == 0 ==> r == 0.0
    ensures summary.totalTransactions > 0 ==>
      r * summary.totalTransactions as real == summary.totalRiskScore as real
  {
    if summary.totalTransactions > 0 then
      summary.totalRiskScore as real / summary.totalTransactions as real
    else 0.0
  }

  predicate IsSuspicious(tx: Transaction, ctx: RiskContext)
  {
    Analyze(tx, ctx.hour, ctx.draws).recommendation != Approve
  }

  /** The analyses of a batch, one per transaction and context. */
  function Analyses(txs: seq<Transaction>, ctxs: seq<RiskContext>): (r: seq<Analysis>)
    requires |ctxs| == |txs|
    ensures |r| == |txs|
  {
    seq(|txs|, i requires 0 <= i < |txs| => Analyze(txs[i], ctxs[i].hour, ctxs[i].draws))
  }

  /** The transactions among the first `n` whose analysis does not approve, in order. */
  function Flagged(txs: seq<Transaction>, analyses: seq<Analysis>, n: nat): (r: seq<Transaction>)
    requires |analyses| == |txs| && n <= |txs|
    ensures |r| <= n
  {
    if n == 0 then []
    else Flagged(txs, analyses, n - 1) + (if analyses[n - 1].recommendation != Approve then [txs[n - 1]] else [])
  }

  /** The sum of the first `n` risk scores. */
  function TotalScore(analyses: seq<Analysis>, n: nat): int
    requires n <= |analyses|
  {
    if n == 0 then 0 else TotalScore(analyses, n - 1) + analyses[n - 1].riskScore
  }

  /** The report built from a batch's analyses. */
  function Report(txs: seq<Transaction>, analyses: seq<Analysis>): (r: BatchReport)
    requires |analyses| == |txs|
    ensures r.riskSummary.totalTransactions == |txs|
    ensures r.riskSummary.suspiciousCount == |r.suspiciousTransactions| <= |txs|
  {
    var flagged := Flagged(txs, analyses, |txs|);
    BatchReport(flagged, RiskSummary(|txs|, |flagged|, TotalScore(analyses, |txs|)))
  }

  /** The flagged list holds exactly the flagged transactions among the first `n`. */
  lemma {:induction false} FlaggedMembers(txs: seq<Transaction>, analyses: seq<Analysis>, n: nat)
    requires |analyses| == |txs| && n <= |txs|
    ensures forall t :: t in Flagged(txs, analyses, n) ==>
              exists i :: 0 <= i < n && txs[i] == t && analyses[i].recommendation != Approve
    ensures forall i :: 0 <= i < n && analyses[i].recommendation != Approve ==> txs[i] in Flagged(txs, analyses, n)
  {
    if n > 0 {
      FlaggedMembers(txs, analyses, n - 1);
    }
  }

  /** The positions among the first `n` whose analysis does not approve. */
  function FlaggedPositions(analyses: seq<Analysis>, n: nat): (r: seq<nat>)
    requires n <= |analyses|
    ensures forall k :: 0 <= k < |r| ==> r[k] < n
  {
    if n == 0 then []
    else FlaggedPositions(analyses, n - 1) + (if analyses[n - 1].recommendation != Approve then [n - 1] else [])
  }

  /** The flagged positions strictly increase and are exactly the positions
      whose analysis does not approve. */
  lemma {:induction false} FlaggedPositionsExact(analyses: seq<Analysis>, n: nat)
    requires n <= |analyses|
    ensures var pos := FlaggedPositions(analyses, n);
      && (forall k, l :: 0 <= k < l < |pos| ==> pos[k] < pos[l])
      && (forall i :: 0 <= i < n ==> (i in pos <==> analyses[i].recommendation != Approve))
  {
    if n > 0 {
      FlaggedPositionsExact(analyses, n - 1);
      var pos := FlaggedPositions(analyses, n - 1);
      if analyses[n - 1].recommendation == Approve {
        assert n - 1 !in pos;
      }
    }
  }

  /** The k-th flagged transaction is the one at the k-th flagged position. */
  lemma {:induction false} FlaggedAtPositions(txs: seq<Transaction>, analyses: seq<Analysis>, n: nat)
    requires |analyses| == |txs| && n <= |txs|
    ensures var pos := FlaggedPositions(analyses, n);
      && |Flagged(txs, analyses, n)| == |pos|
      && (forall k :: 0 <= k < |pos| ==> Flagged(txs, analyses, n)[k] == txs[pos[k]])
  {
    if n > 0 {
      FlaggedAtPositions(txs, analyses, n - 1);
    }
  }

  /** The flagged list is the batch's order-preserving sublist of the flagged
      transactions: its k-th entry is the transaction at the k-th flagged
      position, the positions strictly increase, and they are exactly those
      whose analysis does not approve. */
  lemma {:induction false} FlaggedInOrder(txs: seq<Transaction>, analyses: seq<Analysis>, n: nat)
    requires |analyses| == |txs| && n <= |txs|
    ensures var pos := FlaggedPositions(analyses, n);
      && |Flagged(txs, analyses, n)| == |pos|
      && (forall k :: 0 <= k < |pos| ==> Flagged(txs, analyses, n)[k] == txs[pos[k]])
      && (forall k, l :: 0 <= k < l < |pos| ==> pos[k] < pos[l])
      && (forall i :: 0 <= i < n ==> (i in pos <==> analyses[i].recommendation != Approve))
  {
    FlaggedPositionsExact(analyses, n);
    FlaggedAtPositions(txs, analyses, n);
  }

  /** Risk scores between 5 and 79 sum to between 5n and 79n. */
  lemma {:induction false} TotalScoreBounds(analyses: seq<Analysis>, n: nat)
    requires n <= |analyses|
    requires forall i :: 0 <= i < |analyses| ==> 5 <= analyses[i].riskScore <= 79
    ensures 5 * n <= TotalScore(analyses, n) <= 79 * n
  {
    if n > 0 {
      TotalScoreBounds(analyses, n - 1);
    }
  }

  /** A batch report lists exactly the suspicious transactions, and its
      total risk score lies between 5 and 79 per transaction. */
  lemma BatchReportMeaning(txs: seq<Transaction>, ctxs: seq<RiskContext>)
    requires |ctxs| == |txs|
    ensures var r := Report(txs, Analyses(txs, ctxs));
      && (forall t :: t in r.suspiciousTransactions ==>
            exists i :: 0 <= i < |txs| && txs[i] == t && IsSuspicious(t, ctxs[i]))
      && (forall i :: 0 <= i < |txs| && IsSuspicious(txs[i], ctxs[i]) ==> txs[i] in r.suspiciousTransactions)
      && 5 * |txs| <= r.riskSummary.totalRiskScore <= 79 * |txs|
  {
    var analyses := Analyses(txs, ctxs);
    FlaggedMembers(txs, analyses, |txs|);
    forall i | 0 <= i < |txs|
      ensures 5 <= analyses[i].riskScore <= 79
      ensures IsSuspicious(txs[i], ctxs[i]) <==> analyses[i].recommendation != Approve
    {
    }
    TotalScoreBounds(analyses, |txs|);
  }

  /** The report of a batch whose analyses are already known: one pass that
      collects the flagged transactions and sums the scores. */
  method Summarize(txs: seq<Transaction>, analyses: seq<Analysis>) returns (report: BatchReport)
    requires |analyses| == |txs|
    ensures report == Report(txs, analyses)
  {
    var suspicious: seq<Transaction> := [];
    var total := 0;
    var i := 0;
    while i < |txs|
      invariant 0 <= i <= |txs|
      invariant suspicious == Flagged(txs, analyses, i) && total == TotalScore(analyses, i)
    {
      var analysis := analyses[i];
      total := total + analysis.riskScore;
      if analysis.recommendation != Approve {
        suspicious := suspicious + [txs[i]];
      } else {
        assert suspicious + [] == suspicious;
      }
      i := i + 1;
    }
    report := BatchReport(suspicious, RiskSummary(|txs|, |suspicious|, total));
  }

  /** `analyzeBatchTransactions`, one context per transaction. The average
      risk score is reported as its numerator `totalRiskScore` over
      `totalTransactions`. */
  method AnalyzeBatch(txs: seq<Transaction>, ctxs: seq<RiskContext>) returns (report: BatchReport)
    requires |ctxs| == |txs|
    ensures report == Report(txs, Analyses(txs, ctxs))
    ensures report.riskSummary.totalTransactions == |txs|
    ensures report.riskSummary.suspiciousCount == |report.suspiciousTransactions| <= |txs|
    ensures 5 * |txs| <= report.riskSummary.totalRiskScore <= 79 * |txs|
  {
    var analyses := Analyses(txs, ctxs);
    report := Summarize(txs, analyses);
    BatchReportMeaning(txs, ctxs);
  }

  /** Since no analysis blocks, a transaction is flagged exactly when its
      analysis recommends review, that is when its risk score is 50 to 79. */
  /** A non-empty batch averages between 5 and 79, an empty one 0. */
  method BatchAverage(txs: seq<Transaction>, ctxs: seq<RiskContext>) returns (average: real)
    requires |ctxs| == |txs|
    ensures |txs| == 0 ==> average == 0.0
    ensures |txs| > 0 ==> 5.0 <= average <= 79.0
  {
    var report := AnalyzeBatch(txs, ctxs);
    average := AverageRiskScore(report.riskSummary);
    if |txs| > 0 {
      AverageBetween(report.riskSummary.totalRiskScore, |txs|);
    }
  }

  /** A total between 5n and 79n averages between 5 and 79. */
  lemma AverageBetween(total: int, n: nat)
    requires n > 0 && 5 * n <= total <= 79 * n
    ensures 5.0 <= total as real / n as real <= 79.0
  {
    assert (5 * n) as real == 5.0 * n as real;
    assert (79 * n) as real == 79.0 * n as real;
  }

  lemma SuspiciousMeansReview(tx: Transaction, ctx: RiskContext)
    ensures IsSuspicious(tx, ctx) <==> Analyze(tx, ctx.hour, ctx.draws).recommendation == Review
    ensures IsSuspicious(tx, ctx) <==> 50 <= Analyze(tx, ctx.hour, ctx.draws).riskScore
  {
  }
}

=== FILE: numeric.dfy ===
/** Integer models of the source's `Math.round` and `Math.min`/`Math.max`. */
module Numeric {

  /** `Math.round(n / d)`: the nearest integer to the quotient, a half rounded
      towards positive infinity. Dafny's `/` with a positive divisor floors, so
      this is exact for negative `n` as well. */
  function RoundDiv(n: int, d: int): int
    requires d > 0
  {
    (2 * n + d) / (2 * d)
  }

  /** RoundDiv is the nearest integer: the quotient lies within one half of it,
      a half included below and excluded above. */
  lemma RoundDivNearest(n: int, d: int)
    requires d > 0
    ensures var r := RoundDiv(n, d); 2 * d * r - d <= 2 * n < 2 * d * r + d
  {
  }

  /** The nearest-integer characterisation has exactly one solution. */
  lemma RoundDivUnique(n: int, d: int, r: int)
    requires d > 0
    requires 2 * d * r - d <= 2 * n < 2 * d * r + d
    ensures r == RoundDiv(n, d)
  {
    var q := RoundDiv(n, d);
    RoundDivNearest(n, d);
    if r < q {
      MulMono(r + 1, q, 2 * d);
    } else if r > q {
      MulMono(q + 1, r, 2 * d);
    }
  }

  /** Rounding a quotient is monotone in the numerator. */
  lemma RoundDivMono(n: int, m: int, d: int)
    requires d > 0 && n <= m
    ensures RoundDiv(n, d) <= RoundDiv(m, d)
  {
    var a, b := RoundDiv(n, d), RoundDiv(m, d);
    RoundDivNearest(n, d);
    RoundDivNearest(m, d);
    if a > b {
      MulMono(b + 1, a, 2 * d);
    }
  }

  /** A quotient known to lie between two integers rounds to a value between them. */
  lemma RoundDivBetween(n: int, d: int, lo: int, hi: int)
    requires d > 0
    requires lo * d <= n <= hi * d
    ensures lo <= RoundDiv(n, d) <= hi
  {
    var r := RoundDiv(n, d);
    assert (r + 1) * (2 * d) == 2 * d * r + 2 * d;
    assert lo * (2 * d) == 2 * (lo * d);
    assert (hi + 1) * (2 * d) == 2 * (hi * d) + 2 * d;
    assert r * (2 * d) == 2 * d * r;
    RoundDivNearest(n, d);
    if r < lo {
      MulMono(r + 1, lo, 2 * d);
    }
    if r > hi {
      MulMono(hi + 1, r, 2 * d);
    }
  }

  /** `Math.round` on an exact quotient: the floor of the value plus one half. */
  function Round(x: real): int
  {
    (x + 0.5).Floor
  }

  /** An integer within one half of `x`, a half included below, is its rounding. */
  lemma RoundUnique(x: real, k: int)
    requires k as real - 0.5 <= x < k as real + 0.5
    ensures Round(x) == k
  {
  }

  /** The integer rounding agrees with rounding the exact quotient. */
  lemma RoundDivReal(n: int, d: int)
    requires d > 0
    ensures RoundDiv(n, d) == Round(n as real / d as real)
  {
    var q := RoundDiv(n, d);
    RoundDivNearest(n, d);
    var x := n as real / d as real;
    var dr, qr := d as real, q as real;
    assert (2 * d * q - d) as real == (2.0 * qr - 1.0) * dr;
    assert (2 * d * q + d) as real == (2.0 * qr + 1.0) * dr;
    assert (2 * n) as real == (2.0 * x) * dr;
    ScaleLe(2.0 * qr - 1.0, 2.0 * x, dr);
    ScaleLt(2.0 * x, 2.0 * qr + 1.0, dr);
    RoundUnique(x, q);
  }

  lemma ScaleLe(a: real, b: real, c: real)
    requires c > 0.0 && a * c <= b * c
    ensures a <= b
  {
  }

  lemma ScaleLt(a: real, b: real, c: real)
    requires c > 0.0 && a * c < b * c
    ensures a < b
  {
  }

  lemma MulMono(a: int, b: int, k: int)
    requires a <= b && k >= 0
    ensures a * k <= b * k
  {
  }

  function Min(a: int, b: int): int { if a <= b then a else b }

  function Max(a: int, b: int): int { if a >= b then a else b }

  function Min3(a: int, b: int, c: int): int { Min(Min(a, b), c) }

  function Max3(a: int, b: int, c: int): int { Max(Max(a, b), c) }
}

=== FILE: register_page.dfy ===
/** The pure helpers of the registration page (`src/app/register/page.tsx`):
    the CPF and phone input masks, the form validation and the three-step
    wizard. */
module RegisterPage {
  import opened Seqs
  import opened Numeric

  // ---------------------------------------------------------------------------
  // Digits

  /** `\d` in a JavaScript regular expression: an ASCII digit. */
  predicate IsDigit(c: char)
  {
    '0' <= c <= '9'
  }

  /** `value.replace(/\D/g, '')`: the digits of `value`, in order. */
  function Digits(value: string): (r: string)
    ensures |r| <= |value|
    ensures forall i :: 0 <= i < |r| ==> IsDigit(r[i])
  {
    Filter(value, IsDigit)
  }

  lemma DigitsAppend(a: string, b: string)
    ensures Digits(a + b) == Digits(a) + Digits(b)
  {
    FilterAppend(a, b, IsDigit);
  }

  lemma DigitsOfDigits(value: string)
    requires forall i :: 0 <= i < |value| ==> IsDigit(value[i])
    ensures Digits(value) == value
  {
    FilterKeepsAll(value, IsDigit);
  }

  lemma {:induction false} DigitsOfSeparator(sep: string)
    requires forall i :: 0 <= i < |sep| ==> !IsDigit(sep[i])
    ensures Digits(sep) == []
  {
    if |sep| > 0 {
      DigitsOfSeparator(sep[1..]);
    }
  }

  // ---------------------------------------------------------------------------
  // Masks

  /** `formatCPF`: strips everything but digits; with at least eleven of them
      the first match of `(\d{3})(\d{3})(\d{3})(\d{2})` is the first eleven,
      rendered `ddd.ddd.ddd-dd`, and any further digits follow unchanged. */
  function FormatCPF(value: string): (r: string)
    ensures var n := Digits(value);
      && (|n| < 11 ==> r == n)
      && (|n| >= 11 ==> |r| == |n| + 3 && r[3] == '.' && r[7] == '.' && r[11] == '-'
                        && r[..3] == n[..3] && r[4..7] == n[3..6] && r[8..11] == n[6..9]
                        && r[12..] == n[9..])
  {
    var n := Digits(value);
    if |n| >= 11 then CPFMask(n) else n
  }

  /** The CPF rendering of eleven or more digits. */
  function CPFMask(n: string): string
    requires |n| >= 11
  {
    n[..3] + "." + n[3..6] + "." + n[6..9] + "-" + n[9..11] + n[11..]
  }

  /** The phone rendering of eleven or more digits. */
  function PhoneMask(n: string): string
    requires |n| >= 11
  {
    "(" + n[..2] + ") " + n[2..7] + "-" + n[7..11] + n[11..]
  }

  /** `formatPhone`: likewise with `(\d{2})(\d{5})(\d{4})`, rendered
      `(dd) ddddd-dddd`. */
  function FormatPhone(value: string): (r: string)
    ensures var n := Digits(value);
      && (|n| < 11 ==> r == n)
      && (|n| >= 11 ==> |r| == |n| + 4 && r[0] == '(' && r[3] == ')' && r[4] == ' ' && r[10] == '-'
                        && r[1..3] == n[..2] && r[5..10] == n[2..7] && r[11..] == n[7..])
  {
    var n := Digits(value);
    if |n| >= 11 then PhoneMask(n) else n
  }

  /** A run of digits, a separator without digits, then the rest. */
  lemma DigitsSkipSeparator(a: string, sep: string, rest: string)
    requires forall i :: 0 <= i < |a| ==> IsDigit(a[i])
    requires forall i :: 0 <= i < |sep| ==> !IsDigit(sep[i])
    ensures Digits(a + sep + rest) == a + Digits(rest)
  {
    DigitsAppend(a + sep, rest);
    DigitsAppend(a, sep);
    DigitsOfDigits(a);
    DigitsOfSeparator(sep);
  }

  lemma CPFMaskKeepsDigits(n: string)
    requires |n| >= 11
    requires forall i :: 0 <= i < |n| ==> IsDigit(n[i])
    ensures Digits(CPFMask(n)) == n
  {
    var t2 := n[6..9] + "-" + n[9..];
    var t1 := n[3..6] + "." + t2;
    assert CPFMask(n) == n[..3] + "." + t1;
    DigitsOfDigits(n[9..]);
    DigitsSkipSeparator(n[6..9], "-", n[9..]);
    assert n[6..9] + n[9..] == n[6..];
    DigitsSkipSeparator(n[3..6], ".", t2);
    assert n[3..6] + n[6..] == n[3..];
    DigitsSkipSeparator(n[..3], ".", t1);
    assert n[..3] + n[3..] == n;
  }

  lemma PhoneMaskKeepsDigits(n: string)
    requires |n| >= 11
    requires forall i :: 0 <= i < |n| ==> IsDigit(n[i])
    ensures Digits(PhoneMask(n)) == n
  {
    var t2 := n[2..7] + "-" + n[7..];
    var t1 := n[..2] + ") " + t2;
    assert PhoneMask(n) == [] + "(" + t1;
    DigitsOfDigits(n[7..]);
    DigitsSkipSeparator(n[2..7], "-", n[7..]);
    assert n[2..7] + n[7..] == n[2..];
    DigitsSkipSeparator(n[..2], ") ", t2);
    assert n[..2] + n[2..] == n;
    DigitsSkipSeparator([], "(", t1);
  }

  /** The CPF mask only adds separators: its digits are the input's digits. */
  lemma FormatCPFKeepsDigits(value: string)
    ensures Digits(FormatCPF(value)) == Digits(value)
  {
    var n := Digits(value);
    if |n| >= 11 {
      CPFMaskKeepsDigits(n);
    } else {
      DigitsOfDigits(n);
    }
  }

  lemma FormatPhoneKeepsDigits(value: string)
    ensures Digits(FormatPhone(value)) == Digits(value)
  {
    var n := Digits(value);
    if |n| >= 11 {
      PhoneMaskKeepsDigits(n);
    } else {
      DigitsOfDigits(n);
    }
  }

  /** Re-applying a mask to its own output changes nothing, so the input
      field is stable under repeated edits. */
  lemma FormatCPFIdempotent(value: string)
    ensures FormatCPF(FormatCPF(value)) == FormatCPF(value)
  {
    FormatCPFKeepsDigits(value);
  }

  lemma FormatPhoneIdempotent(value: string)
    ensures FormatPhone(FormatPhone(value)) == FormatPhone(value)
  {
    FormatPhoneKeepsDigits(value);
  }

  // ---------------------------------------------------------------------------
  // Validation

  datatype FormData = FormData(
    name: string,
    email: string,
    phone: string,
    cpf: string,
    password: string,
    confirmPassword: string)

  datatype Validation = Valid | Invalid(message: string)

  /** The four personal fields of step 1 are filled in. */
  predicate PersonalComplete(f: FormData)
  {
    f.name != "" && f.email != "" && f.phone != "" && f.cpf != ""
  }

  /** `validateForm`, with the message of the first failing check. */
  function ValidateForm(f: FormData): (r: Validation)
    ensures r == Valid <==> PersonalComplete(f) && |f.password| >= 8 && f.password == f.confirmPassword
    ensures !PersonalComplete(f) ==> r == Invalid("Preencha todos os campos obrigatórios")
    ensures PersonalComplete(f) && |f.password| < 8 ==> r == Invalid("A senha deve ter pelo menos 8 caracteres")
    ensures PersonalComplete(f) && |f.password| >= 8 && f.password != f.confirmPassword
            ==> r == Invalid("As senhas não coincidem")
  {
    if !PersonalComplete(f) then Invalid("Preencha todos os campos obrigatórios")
    else if |f.password| < 8 then Invalid("A senha deve ter pelo menos 8 caracteres")
    else if f.password != f.confirmPassword then Invalid("As senhas não coincidem")
    else Valid
  }

  // ---------------------------------------------------------------------------
  // Wizard

  /** `handleNextStep`: step 1 needs the personal fields; the step stops at 3. */
  function NextStep(step: int, f: FormData): (r: int)
    ensures r <= 3 || r == step
    ensures step == 1 ==> (r == 2 <==> PersonalComplete(f))
    ensures 1 <= step <= 3 ==> step <= r <= 3
    ensures step == 1 && !PersonalComplete(f) ==> r == step
    ensures !(step == 1 && !PersonalComplete(f)) ==> r == Min(step + 1, 3)
    ensures step == 2 ==> r == 3
  {
    if step == 1 && !PersonalComplete(f) then step
    else if step + 1 < 3 then step + 1 else 3
  }

  /** `handlePrevStep`: the step stops at 1. */
  function PrevStep(step: int): (r: int)
    ensures r >= 1
    ensures step <= 3 ==> r <= step || r == 1
    ensures r == Max(step - 1, 1)
  {
    if step - 1 > 1 then step - 1 else 1
  }

  datatype Press = NextPress | PrevPress

  /** The step after a run of button presses, the form fixed. */
  function Run(step: int, f: FormData, presses: seq<Press>): int
    decreases |presses|
  {
    if |presses| == 0 then step
    else
      var step' := match presses[0] case NextPress => NextStep(step, f) case PrevPress => PrevStep(step);
      Run(step', f, presses[1..])
  }

  /** From the first step, no run of presses leaves steps 1 to 3, so
      `steps[currentStep - 1]` always exists. */
  lemma {:induction false} RunStaysInRange(step: int, f: FormData, presses: seq<Press>)
    requires 1 <= step <= 3
    ensures 1 <= Run(step, f, presses) <= 3
    decreases |presses|
  {
    if |presses| > 0 {
      var step' := match presses[0] case NextPress => NextStep(step, f) case PrevPress => PrevStep(step);
      RunStaysInRange(step', f, presses[1..]);
    }
  }

  /** Without the personal fields, no run of presses gets past step 1. */
  lemma {:induction false} IncompleteStaysOnFirst(f: FormData, presses: seq<Press>)
    requires !PersonalComplete(f)
    ensures Run(1, f, presses) == 1
    decreases |presses|
  {
    if |presses| > 0 {
      IncompleteStaysOnFirst(f, presses[1..]);
    }
  }
}

=== FILE: score_utils.dfy ===
/** The score helpers of `src/lib/utils.ts`: the composite score and its
    colour and label bands. */
module ScoreUtils {
  import opened Types
  import opened Numeric
  import CreditScoring

  /** `calculateScore`: 40% traditional, 35% community, 25% behaviour,
      rounded. The weights sum to one, so the result lies between the
      smallest and the largest input. */
  function CalculateScore(traditional: int, community: int, behavior: int): (r: int)
    ensures Min3(traditional, community, behavior) <= r <= Max3(traditional, community, behavior)
  {
    RoundDivBetween(40 * traditional + 35 * community + 25 * behavior, 100,
                    Min3(traditional, community, behavior), Max3(traditional, community, behavior));
    RoundDiv(40 * traditional + 35 * community + 25 * behavior, 100)
  }

  /** The page helper and the credit-score service combine sub-scores the same way. */
  lemma CalculateScoreIsFinalScore(traditional: int, community: int, behavior: int)
    ensures CalculateScore(traditional, community, behavior)
         == CreditScoring.FinalScore(traditional, community, behavior)
  {
  }

  /** As the source writes it, over exact decimals. */
  lemma CalculateScoreMatchesDecimal(traditional: int, community: int, behavior: int)
    ensures CalculateScore(traditional, community, behavior)
         == Round(traditional as real * 0.4 + community as real * 0.35 + behavior as real * 0.25)
  {
    RoundDivReal(40 * traditional + 35 * community + 25 * behavior, 100);
  }

  lemma CalculateScoreInRange(traditional: int, community: int, behavior: int)
    requires 0 <= traditional <= 100 && 0 <= community <= 100 && 0 <= behavior <= 100
    ensures 0 <= CalculateScore(traditional, community, behavior) <= 100
  {
  }

  /** `getScoreColor`: its thresholds are the label's, so a score's colour
      is the colour of its label. */
  function ScoreColor(score: int): (r: string)
    ensures r == LabelColor(ScoreLabel(score))
    ensures r == "text-red-600" <==> score < 400
  {
    if score >= 800 then "text-green-600"
    else if score >= 600 then "text-yellow-600"
    else if score >= 400 then "text-orange-600"
    else "text-red-600"
  }

  /** `getScoreLabel`: four bands starting at 800, 600 and 400. */
  function ScoreLabel(score: int): (r: string)
    ensures r in {"Excelente", "Bom", "Regular", "Baixo"}
    ensures r == "Excelente" <==> score >= 800
    ensures r == "Bom" <==> 600 <= score < 800
    ensures r == "Regular" <==> 400 <= score < 600
    ensures r == "Baixo" <==> score < 400
  {
    if score >= 800 then "Excelente"
    else if score >= 600 then "Bom"
    else if score >= 400 then "Regular"
    else "Baixo"
  }

  /** The position of a label from lowest to highest band. */
  function LabelRank(name: string): nat
  {
    if name == "Excelente" then 3
    else if name == "Bom" then 2
    else if name == "Regular" then 1
    else 0
  }

  /** The colour that goes with each label. */
  function LabelColor(name: string): string
  {
    if name == "Excelente" then "text-green-600"
    else if name == "Bom" then "text-yellow-600"
    else if name == "Regular" then "text-orange-600"
    else "text-red-600"
  }

  /** Colours and labels correspond one to one: two scores share a colour
      exactly when they share a label. */
  lemma ColorFollowsLabel(a: int, b: int)
    ensures ScoreColor(a) == ScoreColor(b) <==> ScoreLabel(a) == ScoreLabel(b)
  {
  }

  /** A higher score never gets a lower band. */
  lemma BandsMonotone(a: int, b: int)
    requires a <= b
    ensures LabelRank(ScoreLabel(a)) <= LabelRank(ScoreLabel(b))
  {
  }

  /** Any score up to 100 is in the lowest band. */
  lemma SmallScoreIsLowest(score: int)
    requires score <= 100
    ensures ScoreLabel(score) == "Baixo" && ScoreColor(score) == "text-red-600"
  {
  }

  /** The credit-score service produces scores on a 0..100 scale while the
      bands start at 400: with factors and trust levels in range, every final
      score is labelled `Baixo` and coloured red. */
  lemma FinalScoreAlwaysLowest(f: Factors, connections: seq<CommunityConnection>, userId: string)
    requires CreditScoring.FactorsInRange(f) && CreditScoring.TrustInRange(connections)
    ensures var s := CreditScoring.FinalScore(CreditScoring.TraditionalScore(f),
                                              CreditScoring.CommunityScore(f, connections, userId),
                                              CreditScoring.BehaviorScore(f));
      ScoreLabel(s) == "Baixo" && ScoreColor(s) == "text-red-600"
  {
    CreditScoring.ScoresInRange(f, connections, userId);
  }
}

=== FILE: seqs.dfy ===
/** Order-preserving filtering and first-match search over sequences: the
    models of JavaScript's `Array.prototype.filter` and `Array.prototype.find`. */
module Seqs {
  import opened Wrappers

  /** The elements of `s` satisfying `p`, in their original order. */
  function Filter<T>(s: seq<T>, p: T -> bool): (r: seq<T>)
    ensures |r| <= |s|
    ensures forall i :: 0 <= i < |r| ==> r[i] in s && p(r[i])
    ensures forall i :: 0 <= i < |s| && p(s[i]) ==> s[i] in r
  {
    if |s| == 0 then []
    else (if p(s[0]) then [s[0]] else []) + Filter(s[1..], p)
  }

  /** Filtering distributes over concatenation, which together with the
      one-element case pins down the order of the result. */
  lemma {:induction false} FilterAppend<T>(a: seq<T>, b: seq<T>, p: T -> bool)
    ensures Filter(a + b, p) == Filter(a, p) + Filter(b, p)
  {
    if |a| == 0 {
      assert a + b == b;
    } else {
      assert (a + b)[1..] == a[1..] + b;
      FilterAppend(a[1..], b, p);
    }
  }

  /** Filtering keeps every element when all of them satisfy `p`. */
  lemma {:induction false} FilterKeepsAll<T>(s: seq<T>, p: T -> bool)
    requires forall i :: 0 <= i < |s| ==> p(s[i])
    ensures Filter(s, p) == s
  {
    if |s| > 0 {
      FilterKeepsAll(s[1..], p);
    }
  }

  /** Filtering twice with the same predicate changes nothing. */
  lemma FilterIdempotent<T>(s: seq<T>, p: T -> bool)
    ensures Filter(Filter(s, p), p) == Filter(s, p)
  {
    var r := Filter(s, p);
    FilterKeepsAll(r, p);
  }

  /** Replacing an element that the filter drops by another one it drops
      leaves the filtered sequence unchanged. */
  lemma {:induction false} FilterUpdateDropped<T>(s: seq<T>, i: nat, x: T, p: T -> bool)
    requires i < |s|
    requires !p(s[i]) && !p(x)
    ensures Filter(s[i := x], p) == Filter(s, p)
  {
    if i > 0 {
      assert s[i := x][1..] == s[1..][i - 1 := x];
      FilterUpdateDropped(s[1..], i - 1, x, p);
    } else {
      assert s[i := x][1..] == s[1..];
    }
  }

  /** The index of the first element satisfying `p`, if any. */
  function FindIndex<T>(s: seq<T>, p: T -> bool): (r: Option<nat>)
    ensures r.Some? ==> r.value < |s| && p(s[r.value])
    ensures r.Some? ==> forall j :: 0 <= j < r.value ==> !p(s[j])
    ensures r.None? <==> forall j :: 0 <= j < |s| ==> !p(s[j])
  {
    if |s| == 0 then None
    else if p(s[0]) then Some(0)
    else match FindIndex(s[1..], p)
      case None => None
      case Some(k) => Some(k + 1)
  }
}

=== FILE: transfer_page.dfy ===
/** The pure rules of the transfer page (`src/app/transfer/page.tsx`): the
    amount sanitiser, `parseFloat` on what it leaves, the wizard steps, the
    simulated fraud check and its step-up branch. */
module TransferPage {
  import opened Wrappers
  import opened Types
  import opened Seqs

  // ---------------------------------------------------------------------------
  // Amount input

  predicate IsDigit(c: char)
  {
    '0' <= c <= '9'
  }

  /** A character the amount field keeps. */
  predicate IsAmountChar(c: char)
  {
    IsDigit(c) || c == '.'
  }

  /** `handleAmountChange`: `value.replace(/[^0-9.]/g, '')`. */
  function Sanitize(value: string): (r: string)
    ensures |r| <= |value|
    ensures forall i :: 0 <= i < |r| ==> IsAmountChar(r[i]) && r[i] in value
    ensures forall i :: 0 <= i < |value| && IsAmountChar(value[i]) ==> value[i] in r
  {
    Filter(value, IsAmountChar)
  }

  /** What is kept stays in its order: sanitising distributes over
      concatenation. */
  lemma SanitizeAppend(a: string, b: string)
    ensures Sanitize(a + b) == Sanitize(a) + Sanitize(b)
  {
    FilterAppend(a, b, IsAmountChar);
  }

  /** An amount made only of digits and points passes through unchanged. */
  lemma SanitizeKeepsClean(value: string)
    requires forall i :: 0 <= i < |value| ==> IsAmountChar(value[i])
    ensures Sanitize(value) == value
  {
    FilterKeepsAll(value, IsAmountChar);
  }

  lemma SanitizeIdempotent(value: string)
    ensures Sanitize(Sanitize(value)) == Sanitize(value)
  {
    FilterIdempotent(value, IsAmountChar);
  }

  // ---------------------------------------------------------------------------
  // parseFloat

  /** The longest prefix of `s` made of digits. */
  function LeadingDigits(s: string): (r: string)
    ensures |r| <= |s| && r == s[..|r|]
    ensures forall i :: 0 <= i < |r| ==> IsDigit(r[i])
    ensures |r| < |s| ==> !IsDigit(s[|r|])
  {
    if |s| > 0 && IsDigit(s[0]) then [s[0]] + LeadingDigits(s[1..]) else []
  }

  function DigitValue(c: char): nat
    requires IsDigit(c)
  {
    (c as int - '0' as int) as nat
  }

  /** The value of a run of decimal digits, most significant first. */
  function DigitsValue(ds: string): nat
    requires forall i :: 0 <= i < |ds| ==> IsDigit(ds[i])
    decreases |ds|
  {
    if |ds| == 0 then 0 else 10 * DigitsValue(ds[..|ds| - 1]) + DigitValue(ds[|ds| - 1])
  }

  function Pow10(n: nat): (r: nat)
    ensures r >= 1
  {
    if n == 0 then 1 else 10 * Pow10(n - 1)
  }

  /** The fraction digits `parseFloat` reads: those after a point that
      directly follows the integer digits. */
  function FractionDigits(s: string): (r: string)
    ensures forall i :: 0 <= i < |r| ==> IsDigit(r[i])
  {
    var rest := s[|LeadingDigits(s)|..];
    if |rest| > 0 && rest[0] == '.' then LeadingDigits(rest[1..]) else []
  }

  /** `parseFloat` on a string, as an exact decimal; `None` is `NaN`, which
      is what a string with no digit before or right after its first point
      gives. */
  function ParseAmount(s: string): (r: Option<real>)
    ensures r.None? <==> LeadingDigits(s) == [] && FractionDigits(s) == []
    ensures r.Some? ==> r.value >= 0.0
  {
    var whole := LeadingDigits(s);
    var fraction := FractionDigits(s);
    if whole == [] && fraction == [] then None
    else Some(DecimalValue(whole, fraction))
  }

  /** The value of `whole.fraction`. */
  function DecimalValue(whole: string, fraction: string): (r: real)
    requires forall i :: 0 <= i < |whole| ==> IsDigit(whole[i])
    requires forall i :: 0 <= i < |fraction| ==> IsDigit(fraction[i])
    ensures r >= 0.0
  {
    DigitsValue(whole) as real + DigitsValue(fraction) as real / Pow10(|fraction|) as real
  }

  /** Some character of `ds` is not the digit 0. */
  predicate HasNonZero(ds: string)
  {
    exists i :: 0 <= i < |ds| && ds[i] != '0'
  }

  /** A run of digits is worth something exactly when one of them is not 0. */
  lemma {:induction false} DigitsValuePositive(ds: string)
    requires forall i :: 0 <= i < |ds| ==> IsDigit(ds[i])
    ensures DigitsValue(ds) > 0 <==> HasNonZero(ds)
    decreases |ds|
  {
    if |ds| > 0 {
      var init := ds[..|ds| - 1];
      DigitsValuePositive(init);
      if exists i :: 0 <= i < |init| && init[i] != '0' {
        var i :| 0 <= i < |init| && init[i] != '0';
        assert ds[i] != '0';
      }
      if exists i :: 0 <= i < |ds| && ds[i] != '0' {
        var i :| 0 <= i < |ds| && ds[i] != '0';
        if i < |ds| - 1 {
          assert init[i] != '0';
        }
      }
    }
  }

  /** A whole part plus a scaled fraction is positive exactly when one of
      the two is. */
  lemma DecimalPositive(whole: string, fraction: string)
    requires forall i :: 0 <= i < |whole| ==> IsDigit(whole[i])
    requires forall i :: 0 <= i < |fraction| ==> IsDigit(fraction[i])
    ensures DecimalValue(whole, fraction) > 0.0 <==> DigitsValue(whole) > 0 || DigitsValue(fraction) > 0
  {
    var q := DigitsValue(fraction) as real / Pow10(|fraction|) as real;
    assert q * Pow10(|fraction|) as real == DigitsValue(fraction) as real;
    if DigitsValue(fraction) > 0 {
      assert q > 0.0;
    } else {
      assert q == 0.0;
    }
  }

  /** A parsed amount is positive exactly when some digit it read is not 0. */
  lemma ParseAmountPositive(s: string)
    requires ParseAmount(s).Some?
    ensures ParseAmount(s).value > 0.0 <==> HasNonZero(LeadingDigits(s)) || HasNonZero(FractionDigits(s))
  {
    var whole := LeadingDigits(s);
    var fraction := FractionDigits(s);
    DigitsValuePositive(whole);
    DigitsValuePositive(fraction);
    DecimalPositive(whole, fraction);
    assert ParseAmount(s) == Some(DecimalValue(whole, fraction));
  }

  /** A plain run of digits parses to its decimal value. */
  lemma ParseWholeNumber(ds: string)
    requires |ds| > 0 && forall i :: 0 <= i < |ds| ==> IsDigit(ds[i])
    ensures ParseAmount(ds) == Some(DigitsValue(ds) as real)
  {
    LeadingWhole(ds);
    assert ds[|ds|..] == [];
    assert FractionDigits(ds) == [];
    assert DigitsValue([]) == 0;
    assert Pow10(0) == 1;
  }

  lemma {:induction false} LeadingWhole(ds: string)
    requires forall i :: 0 <= i < |ds| ==> IsDigit(ds[i])
    ensures LeadingDigits(ds) == ds
    decreases |ds|
  {
    if |ds| > 0 {
      LeadingWhole(ds[1..]);
    }
  }

  // ---------------------------------------------------------------------------
  // Wizard steps

  /** `handleNextStep` as written: step 2 is held back only by an empty
      amount or one that parses to at most 0. `NaN <= 0` is false, so an
      amount that does not parse moves on. */
  function NextStepAsWritten(step: int, amount: string): (r: int)
    ensures step == 2 ==>
      (r == 3 <==> amount != "" && !(ParseAmount(amount).Some? && ParseAmount(amount).value <= 0.0))
    ensures step == 3 ==> r == 4
    ensures step != 2 && step != 3 ==> r == step
  {
    if step == 2 then
      if amount == "" || (ParseAmount(amount).Some? && ParseAmount(amount).value <= 0.0) then step else 3
    else if step == 3 then 4
    else step
  }

  /** A bare point is not an amount, yet it takes the wizard past step 2. */
  lemma PointPassesAmountStep()
    ensures Sanitize(".") == "."
    ensures ParseAmount(".").None?
    ensures NextStepAsWritten(2, ".") == 3
  {
    SanitizeKeepsClean(".");
    assert LeadingDigits(".") == [];
    assert ".."[1..] == ".";
    assert FractionDigits(".") == [];
  }

  /** `handleNextStep` as the error message 'Digite um valor válido'
      intends: step 2 needs an amount that parses to a positive number. */
  function NextStep(step: int, amount: string): (r: int)
    ensures step == 2 ==> (r == 3 <==> ParseAmount(amount).Some? && ParseAmount(amount).value > 0.0)
    ensures step == 3 ==> r == 4
    ensures step != 2 && step != 3 ==> r == step
  {
    if step == 2 then
      match ParseAmount(amount)
      case Some(v) => if v > 0.0 then 3 else step
      case None => step
    else if step == 3 then 4
    else step
  }

  /** The two agree on every amount that parses; they differ only on a
      non-empty amount that does not. */
  lemma NextStepDiffersOnlyOnNaN(step: int, amount: string)
    ensures NextStepAsWritten(step, amount) != NextStep(step, amount) <==>
      step == 2 && amount != "" && ParseAmount(amount).None?
  {
    if amount == "" {
      assert LeadingDigits(amount) == [];
    }
  }

  /** Only a strictly positive amount reaches the review step. */
  lemma ReviewNeedsPositiveAmount(amount: string)
    requires NextStep(2, amount) == 3
    ensures amount != ""
    ensures exists i :: 0 <= i < |amount| && IsDigit(amount[i]) && amount[i] != '0'
  {
    ParseAmountPositive(amount);
    var whole := LeadingDigits(amount);
    var fraction := FractionDigits(amount);
    if HasNonZero(whole) {
      var i :| 0 <= i < |whole| && whole[i] != '0';
      assert amount[i] == whole[i];
    } else {
      var i :| 0 <= i < |fraction| && fraction[i] != '0';
      var rest := amount[|whole|..];
      assert rest[0] == '.';
      var k := |whole| + 1 + i;
      assert LeadingDigits(rest[1..])[i] == rest[1..][i];
      assert amount[k] == fraction[i];
    }
  }

  // ---------------------------------------------------------------------------
  // Simulated fraud check

  datatype Risk = LowRisk | MediumRisk | HighRisk  // 'low', 'medium', 'high'

  /** The risk label shown for the page's fraud score. */
  function RiskLabel(score: real): (r: Risk)
    ensures r == HighRisk <==> score > 70.0
    ensures r == LowRisk <==> score <= 40.0
  {
    if score > 70.0 then HighRisk else if score > 40.0 then MediumRisk else LowRisk
  }

  function RiskRank(r: Risk): nat
  {
    match r
    case LowRisk => 0
    case MediumRisk => 1
    case HighRisk => 2
  }

  /** A higher score never gets a lower label. */
  lemma RiskLabelMonotone(a: real, b: real)
    requires a <= b
    ensures RiskRank(RiskLabel(a)) <= RiskRank(RiskLabel(b))
  {
  }

  datatype PageFactor = PageFactor(name: string, score: int)

  /** A recipient from the page's list; only the score is used by the check. */
  datatype Recipient = Recipient(id: string, name: string, score: int)

  /** The four factors displayed with the check. The amount is compared as
      parsed, so an amount that does not parse counts as small. */
  function PageFactors(amount: Option<real>, hour: Hour, recipient: Recipient): (r: seq<PageFactor>)
    ensures |r| == 4
    ensures r[0].name == "Valor da transação" && (r[0].score == 80 <==> amount.Some? && amount.value > 1000.0)
    ensures r[1].name == "Horário" && (r[1].score == 60 <==> hour < 6 || hour > 22)
    ensures r[2].name == "Histórico do usuário" && (r[2].score == 10 <==> recipient.score > 700)
    ensures r[3] == PageFactor("Padrão de uso", 30)
    ensures r[0].score in {20, 80} && r[1].score in {10, 60} && r[2].score in {10, 50}
    ensures forall i :: 0 <= i < 4 ==> 10 <= r[i].score <= 80
  {
    [ PageFactor("Valor da transação", if amount.Some? && amount.value > 1000.0 then 80 else 20),
      PageFactor("Horário", if hour < 6 || hour > 22 then 60 else 10),
      PageFactor("Histórico do usuário", if recipient.score > 700 then 10 else 50),
      PageFactor("Padrão de uso", 30) ]
  }

  datatype FraudCheck = FraudCheck(score: real, risk: Risk, factors: seq<PageFactor>)

  /** What the page hands to the wallet: the amount as `parseFloat` reads it. */
  datatype Submission = Submission(toUserId: string, amount: Option<real>, description: string)

  const DefaultDescription := "Transferência P2P"

  /** The form state the page keeps. */
  datatype TransferForm = TransferForm(toUserId: string, amount: string, description: string)

  /** The request built from the form, both on the direct path and after the
      biometric confirmation. */
  function Request(form: TransferForm): (r: Submission)
    ensures r.toUserId == form.toUserId
    ensures r.description == (if form.description == "" then DefaultDescription else form.description)
    ensures r.description != ""
    ensures r.amount == ParseAmount(form.amount)
  {
    Submission(form.toUserId, ParseAmount(form.amount),
               if form.description == "" then DefaultDescription else form.description)
  }

  datatype Outcome =
    | NoAction                                  // no user or no recipient
    | StepUp(check: FraudCheck)                 // step 5: biometric confirmation
    | Submit(check: FraudCheck, request: Submission)

  /** `handleTransfer` with the random score as an input in [0, 100): above
      80 it asks for biometrics instead of calling the wallet. */
  function HandleTransfer(loggedIn: bool, recipient: Option<Recipient>, form: TransferForm,
                          fraudScore: real, hour: Hour): (r: Outcome)
    requires 0.0 <= fraudScore < 100.0
    ensures r.NoAction? <==> !loggedIn || recipient.None?
    ensures r.StepUp? <==> loggedIn && recipient.Some? && fraudScore > 80.0
    ensures r.Submit? ==> r.request == Request(form) && fraudScore <= 80.0
    ensures !r.NoAction? ==>
      && r.check.score == fraudScore
      && r.check.risk == RiskLabel(fraudScore)
      && r.check.factors == PageFactors(ParseAmount(form.amount), hour, recipient.value)
  {
    if !loggedIn || recipient.None? then NoAction
    else
      var check := FraudCheck(fraudScore, RiskLabel(fraudScore),
                              PageFactors(ParseAmount(form.amount), hour, recipient.value));
      if fraudScore > 80.0 then StepUp(check)
      else Submit(check, Request(form))
  }

  /** Every transfer held for biometrics was labelled high risk. */
  lemma StepUpIsHighRisk(loggedIn: bool, recipient: Option<Recipient>, form: TransferForm,
                         fraudScore: real, hour: Hour)
    requires 0.0 <= fraudScore < 100.0
    requires HandleTransfer(loggedIn, recipient, form, fraudScore, hour).StepUp?
    ensures HandleTransfer(loggedIn, recipient, form, fraudScore, hour).check.risk == HighRisk
  {
  }

  /** Selecting a recipient fills in the destination and opens step 2. */
  function SelectRecipient(form: TransferForm, recipient: Recipient): (r: (TransferForm, int))
    ensures r.0.toUserId == recipient.id && r.1 == 2
    ensures r.0.amount == form.amount && r.0.description == form.description
  {
    (form.(toUserId := recipient.id), 2)
  }

  /** Typing an amount stores its sanitised form. */
  function ChangeAmount(form: TransferForm, value: string): (r: TransferForm)
    ensures r.amount == Sanitize(value)
    ensures r.toUserId == form.toUserId && r.description == form.description
  {
    form.(amount := Sanitize(value))
  }
}

=== FILE: types.dfy ===
/** The records of `src/types/index.ts`, as immutable datatypes.
    Dates are integer timestamps supplied by the caller, amounts of money are
    integer cents, and optional (`?`) fields are `Option`s. */
module Types {
  import opened Wrappers

  /** Milliseconds since the epoch; every clock read of the source is an input. */
  type Timestamp = int

  /** The value of `new Date().getHours()`. */
  type Hour = h: int | 0 <= h < 24

  /** Money in cents: R$ 1,00 is 100. */
  type Cents = int

  datatype User = User(
    id: string,
    email: string,
    name: string,
    phone: string,
    cpf: string,
    avatar: Option<string>,
    createdAt: Timestamp,
    updatedAt: Timestamp,
    isVerified: bool,
    biometricEnabled: bool,
    twoFactorEnabled: bool)

  datatype Wallet = Wallet(
    id: string,
    userId: string,
    balance: Cents,
    currency: string,
    isActive: bool,
    createdAt: Timestamp,
    updatedAt: Timestamp)

  datatype TransactionKind = Transfer | Payment | Deposit | Withdrawal

  datatype TransactionStatus = Pending | Completed | Failed | Cancelled

  datatype Location = Location(lat: real, lng: real, address: string)

  datatype DeviceInfo = DeviceInfo(fingerprint: string, userAgent: string, ip: string)

  datatype Transaction = Transaction(
    id: string,
    fromUserId: string,
    toUserId: string,
    amount: Cents,
    description: string,
    kind: TransactionKind,
    status: TransactionStatus,
    fraudScore: Option<real>,
    location: Option<Location>,
    deviceInfo: Option<DeviceInfo>,
    createdAt: Timestamp,
    updatedAt: Timestamp)

  /** The six named inputs of the credit score, in whole points. */
  datatype Factors = Factors(
    paymentHistory: int,
    creditUtilization: int,
    creditHistory: int,
    communityTrust: int,
    socialConnections: int,
    transactionPatterns: int)

  datatype CreditScore = CreditScore(
    id: string,
    userId: string,
    traditionalScore: int,
    communityScore: int,
    behaviorScore: int,
    finalScore: int,
    lastUpdated: Timestamp,
    factors: Factors)

  /** A directed edge of the trust graph, from the endorser to the endorsed. */
  datatype CommunityConnection = CommunityConnection(
    id: string,
    fromUserId: string,
    toUserId: string,
    trustLevel: int,
    endorsementCount: nat,
    isVerified: bool,
    createdAt: Timestamp)

  datatype AlertType = SuspiciousTransaction | UnusualLocation | DeviceChange | PatternAnomaly

  /** Shared by alert severities and transaction risk levels, which the source
      types with the same four-string union. */
  datatype Severity = Low | Medium | High | Critical

  /** The position of a severity in the order low < medium < high < critical. */
  function SeverityRank(s: Severity): nat
  {
    match s
    case Low => 0
    case Medium => 1
    case High => 2
    case Critical => 3
  }

  datatype FraudAlert = FraudAlert(
    id: string,
    userId: string,
    transactionId: Option<string>,
    alertType: AlertType,
    severity: Severity,
    description: string,
    isResolved: bool,
    createdAt: Timestamp,
    resolvedAt: Option<Timestamp>)

  datatype LoginRequest = LoginRequest(
    email: string,
    password: string,
    biometricData: Option<string>,
    twoFactorCode: Option<string>)

  datatype RegisterRequest = RegisterRequest(
    name: string,
    email: string,
    phone: string,
    cpf: string,
    password: string,
    biometricData: Option<string>)

  datatype TransferRequest = TransferRequest(
    toUserId: string,
    amount: Cents,
    description: string,
    biometricConfirmation: Option<string>)

  /** JavaScript truthiness of an optional string: absent and `''` are falsy. */
  predicate Truthy(s: Option<string>)
  {
    s.Some? && s.value != ""
  }
}

=== FILE: wallet.dfy ===
/** The wallet service of `src/lib/wallet.ts`: a store of wallets and of the
    transaction log, with get-or-create wallets, transfers behind a balance
    check and a fraud gate, deposits, withdrawals and the history query. */
module WalletLedger {
  import opened Wrappers
  import opened Types
  import opened Seqs
  import opened Numeric

  datatype WalletStore = WalletStore(wallets: seq<Wallet>, transactions: seq<Transaction>)

  /** R$ 1000,00, the demo's opening balance. */
  const StartingBalance: Cents := 100000

  datatype WalletError = InsufficientBalance | FraudSuspected

  // ---------------------------------------------------------------------------
  // Wallets

  /** The position of the first wallet of `userId`, if any (`Array.find`). */
  function IndexOf(wallets: seq<Wallet>, userId: string): (r: Option<nat>)
    ensures r.Some? ==> r.value < |wallets| && wallets[r.value].userId == userId
    ensures r.Some? ==> forall j :: 0 <= j < r.value ==> wallets[j].userId != userId
    ensures r.None? <==> forall j :: 0 <= j < |wallets| ==> wallets[j].userId != userId
  {
    FindIndex(wallets, (w: Wallet) => w.userId == userId)
  }

  /** Where the user's wallet is, or will be once created. */
  function Slot(wallets: seq<Wallet>, userId: string): (r: nat)
    ensures r <= |wallets|
    ensures r < |wallets| ==> wallets[r].userId == userId
    ensures r == |wallets| <==> IndexOf(wallets, userId).None?
  {
    match IndexOf(wallets, userId)
    case Some(i) => i
    case None => |wallets|
  }

  function NewWallet(id: string, userId: string, now: Timestamp): Wallet
  {
    Wallet(id, userId, StartingBalance, "BRL", true, now, now)
  }

  /** `getWallet`: the user's wallet, created with the opening balance on first use. */
  function GetWallet(store: WalletStore, userId: string, id: string, now: Timestamp): (r: (WalletStore, Wallet))
    ensures r.1.userId == userId
    ensures r.0.transactions == store.transactions
    ensures Slot(store.wallets, userId) < |r.0.wallets| && r.0.wallets[Slot(store.wallets, userId)] == r.1
    ensures IndexOf(store.wallets, userId).Some? ==> r.0 == store
    ensures IndexOf(store.wallets, userId).None? ==>
              r.0.wallets == store.wallets + [r.1]
              && r.1.balance == StartingBalance && r.1.currency == "BRL" && r.1.isActive && r.1.id == id
  {
    match IndexOf(store.wallets, userId)
    case Some(i) => (store, store.wallets[i])
    case None =>
      var w := NewWallet(id, userId, now);
      (store.(wallets := store.wallets + [w]), w)
  }

  /** Once a wallet exists, `getWallet` returns it and changes nothing. */
  lemma GetWalletIdempotent(store: WalletStore, userId: string, id: string, id': string, now: Timestamp, now': Timestamp)
    ensures var (store1, w1) := GetWallet(store, userId, id, now);
      GetWallet(store1, userId, id', now') == (store1, w1)
  {
    var (store1, w1) := GetWallet(store, userId, id, now);
    if IndexOf(store.wallets, userId).None? {
      assert forall j :: 0 <= j < |store.wallets| ==> store1.wallets[j] == store.wallets[j];
      assert store1.wallets[|store.wallets|].userId == userId;
    }
  }

  // ---------------------------------------------------------------------------
  // Balances

  /** The money held across all wallets. */
  function Total(wallets: seq<Wallet>): int
  {
    if |wallets| == 0 then 0 else wallets[0].balance + Total(wallets[1..])
  }

  lemma {:induction false} TotalUpdate(wallets: seq<Wallet>, i: nat, w: Wallet)
    requires i < |wallets|
    ensures Total(wallets[i := w]) == Total(wallets) - wallets[i].balance + w.balance
  {
    if i == 0 {
      assert wallets[i := w][1..] == wallets[1..];
    } else {
      assert wallets[i := w][1..] == wallets[1..][i - 1 := w];
      TotalUpdate(wallets[1..], i - 1, w);
    }
  }

  lemma {:induction false} TotalAppend(wallets: seq<Wallet>, w: Wallet)
    ensures Total(wallets + [w]) == Total(wallets) + w.balance
  {
    if |wallets| == 0 {
      assert wallets + [w] == [w];
      assert [w][1..] == [];
    } else {
      assert (wallets + [w])[1..] == wallets[1..] + [w];
      TotalAppend(wallets[1..], w);
    }
  }

  /** Creating a wallet brings the opening balance into the system. */
  lemma GetWalletTotal(store: WalletStore, userId: string, id: string, now: Timestamp)
    ensures var store1 := GetWallet(store, userId, id, now).0;
      Total(store1.wallets) == Total(store.wallets)
        + (if IndexOf(store.wallets, userId).None? then StartingBalance else 0)
  {
    if IndexOf(store.wallets, userId).None? {
      TotalAppend(store.wallets, NewWallet(id, userId, now));
    }
  }

  function Credited(w: Wallet, amount: Cents, now: Timestamp): Wallet
  {
    w.(balance := w.balance + amount, updatedAt := now)
  }

  // ---------------------------------------------------------------------------
  // Fraud gate

  predicate OffHours(hour: Hour)
  {
    hour < 6 || hour > 22
  }

  /** `calculateFraudScore`, with `Math.random() * 20` supplied as `random`:
      20 above R$ 5000, another 30 above R$ 10000, 15 at night, plus the
      random term, capped at 100. */
  function FraudScore(amount: Cents, hour: Hour, random: real): (r: real)
    requires 0.0 <= random < 20.0
    ensures 0.0 <= r < 85.0
    ensures r > 80.0 <==> amount > 1_000_000 && OffHours(hour) && random > 15.0
  {
    var base := (if amount > 500_000 then 20 else 0)
              + (if amount > 1_000_000 then 30 else 0)
              + (if OffHours(hour) then 15 else 0);
    var score := base as real + random;
    if score < 100.0 then score else 100.0
  }

  // ---------------------------------------------------------------------------
  // Transfers

  /** The values `transfer` takes from outside the service: generated ids,
      the clock, the random term of the fraud score and the browser's user
      agent. */
  datatype TransferEnv = TransferEnv(
    fromWalletId: string,
    toWalletId: string,
    transactionId: string,
    now: Timestamp,
    hour: Hour,
    random: real,
    userAgent: string)

  predicate ValidEnv(env: TransferEnv)
  {
    0.0 <= env.random < 20.0
  }

  /** The store after `transfer` fetched (or created) both wallets. */
  function Prepared(store: WalletStore, request: TransferRequest, fromUserId: string, env: TransferEnv): (r: WalletStore)
    ensures r.transactions == store.transactions
    ensures |store.wallets| <= |r.wallets|
    ensures forall j :: 0 <= j < |store.wallets| ==> r.wallets[j] == store.wallets[j]
    ensures Slot(r.wallets, fromUserId) < |r.wallets| && Slot(r.wallets, request.toUserId) < |r.wallets|
  {
    var store1 := GetWallet(store, fromUserId, env.fromWalletId, env.now).0;
    var store2 := GetWallet(store1, request.toUserId, env.toWalletId, env.now).0;
    assert store2.wallets[Slot(store1.wallets, request.toUserId)].userId == request.toUserId;
    assert store2.wallets[Slot(store.wallets, fromUserId)].userId == fromUserId;
    store2
  }

  /** The record of a completed transfer. */
  function TransferRecord(request: TransferRequest, fromUserId: string, score: real, env: TransferEnv): Transaction
  {
    Transaction(env.transactionId, fromUserId, request.toUserId, request.amount, request.description,
                Transfer, Completed, Some(score),
                Some(Location(-23.5505, -46.6333, "São Paulo, SP, Brasil")),
                Some(DeviceInfo("device_fingerprint_123", env.userAgent, "192.168.1.1")),
                env.now, env.now)
  }

  /** `transfer`: fetches both wallets, rejects an amount above the sender's
      balance, then a fraud score above 80; otherwise moves the money and
      logs a completed transfer. A rejected transfer keeps only the wallets
      its lookups created. */
  function DoTransfer(store: WalletStore, request: TransferRequest, fromUserId: string, env: TransferEnv): (r: (WalletStore, Result<Transaction, WalletError>))
    requires ValidEnv(env)
    ensures var prepared := Prepared(store, request, fromUserId, env);
      var sender := prepared.wallets[Slot(prepared.wallets, fromUserId)];
      && (r.1 == Failure(InsufficientBalance) <==> sender.balance < request.amount)
      && (r.1 == Failure(FraudSuspected) <==>
            sender.balance >= request.amount && FraudScore(request.amount, env.hour, env.random) > 80.0)
      && (r.1.Failure? ==> r.0 == prepared)
      && (r.1.Success? ==>
            && r.1.value == TransferRecord(request, fromUserId, FraudScore(request.amount, env.hour, env.random), env)
            && r.0.transactions == store.transactions + [r.1.value]
            && |r.0.wallets| == |prepared.wallets|)
  {
    var prepared := Prepared(store, request, fromUserId, env);
    var i := Slot(prepared.wallets, fromUserId);
    var j := Slot(prepared.wallets, request.toUserId);
    if prepared.wallets[i].balance < request.amount then
      (prepared, Failure(InsufficientBalance))
    else
      var score := FraudScore(request.amount, env.hour, env.random);
      if score > 80.0 then
        (prepared, Failure(FraudSuspected))
      else
        var tx := TransferRecord(request, fromUserId, score, env);
        (WalletStore(Move(prepared.wallets, i, j, request.amount, env.now), prepared.transactions + [tx]), Success(tx))
  }

  /** The balance updates of a transfer: debit wallet `i`, then credit wallet `j`. */
  function Move(wallets: seq<Wallet>, i: nat, j: nat, amount: Cents, now: Timestamp): (r: seq<Wallet>)
    requires i < |wallets| && j < |wallets|
    ensures |r| == |wallets|
  {
    var debited := wallets[i := Credited(wallets[i], -amount, now)];
    debited[j := Credited(debited[j], amount, now)]
  }

  /** Moving money changes only the two balances, by exactly the amount, and
      conserves the total; moving it from a wallet to itself changes no balance. */
  lemma MoveEffects(wallets: seq<Wallet>, i: nat, j: nat, amount: Cents, now: Timestamp)
    requires i < |wallets| && j < |wallets|
    ensures var after := Move(wallets, i, j, amount, now);
      && Total(after) == Total(wallets)
      && (i != j ==> after[i].balance == wallets[i].balance - amount)
      && (i != j ==> after[j].balance == wallets[j].balance + amount)
      && (i == j ==> after[i].balance == wallets[i].balance)
      && (forall k :: 0 <= k < |after| && k != i && k != j ==> after[k] == wallets[k])
      && (forall k :: 0 <= k < |after| ==> after[k].userId == wallets[k].userId)
  {
    var debited := wallets[i := Credited(wallets[i], -amount, now)];
    TotalUpdate(wallets, i, Credited(wallets[i], -amount, now));
    TotalUpdate(debited, j, Credited(debited[j], amount, now));
  }

  /** A successful transfer moves exactly `amount` from the sender to the
      recipient, touches no other wallet and conserves the total; a transfer
      to oneself leaves every balance as it was. */
  lemma TransferMovesAmount(store: WalletStore, request: TransferRequest, fromUserId: string, env: TransferEnv)
    requires ValidEnv(env)
    requires DoTransfer(store, request, fromUserId, env).1.Success?
    ensures var prepared := Prepared(store, request, fromUserId, env);
      var after := DoTransfer(store, request, fromUserId, env).0;
      var i, j := Slot(prepared.wallets, fromUserId), Slot(prepared.wallets, request.toUserId);
      && Total(after.wallets) == Total(prepared.wallets)
      && (i != j ==> after.wallets[i].balance == prepared.wallets[i].balance - request.amount)
      && (i != j ==> after.wallets[j].balance == prepared.wallets[j].balance + request.amount)
      && (i == j ==> after.wallets[i].balance == prepared.wallets[i].balance)
      && |after.wallets| == |prepared.wallets|
      && (forall k :: 0 <= k < |after.wallets| && k != i && k != j ==> after.wallets[k] == prepared.wallets[k])
      && (forall k :: 0 <= k < |after.wallets| ==> after.wallets[k].userId == prepared.wallets[k].userId)
  {
    var prepared := Prepared(store, request, fromUserId, env);
    var i, j := Slot(prepared.wallets, fromUserId), Slot(prepared.wallets, request.toUserId);
    assert DoTransfer(store, request, fromUserId, env).0.wallets == Move(prepared.wallets, i, j, request.amount, env.now);
    MoveEffects(prepared.wallets, i, j, request.amount, env.now);
  }

  /** The balance check comes first: an amount above the sender's balance is
      refused as insufficient whatever the hour and the random term. */
  lemma BalanceCheckedFirst(store: WalletStore, request: TransferRequest, fromUserId: string, env: TransferEnv, env': TransferEnv)
    requires ValidEnv(env) && ValidEnv(env')
    requires env'.fromWalletId == env.fromWalletId && env'.toWalletId == env.toWalletId && env'.now == env.now
    requires DoTransfer(store, request, fromUserId, env).1 == Failure(InsufficientBalance)
    ensures DoTransfer(store, request, fromUserId, env') == DoTransfer(store, request, fromUserId, env)
  {
  }

  /** Only a large night-time transfer can be stopped by the fraud gate. */
  lemma FraudGateNeedsLargeNightTransfer(store: WalletStore, request: TransferRequest, fromUserId: string, env: TransferEnv)
    requires ValidEnv(env)
    requires DoTransfer(store, request, fromUserId, env).1 == Failure(FraudSuspected)
    ensures request.amount > 1_000_000 && OffHours(env.hour)
  {
  }

  // ---------------------------------------------------------------------------
  // Deposits and withdrawals

  /** `deposit`: credits the user's wallet (created if need be) and logs a
      completed deposit from `system`. No amount is refused. */
  function Deposit(store: WalletStore, userId: string, amount: Cents, walletId: string, transactionId: string, now: Timestamp): (r: (WalletStore, Transaction))
    ensures var prepared := GetWallet(store, userId, walletId, now).0;
      var i := Slot(store.wallets, userId);
      && |r.0.wallets| == |prepared.wallets|
      && r.0.wallets[i].balance == prepared.wallets[i].balance + amount
      && (forall k :: 0 <= k < |r.0.wallets| && k != i ==> r.0.wallets[k] == prepared.wallets[k])
      && Total(r.0.wallets) == Total(prepared.wallets) + amount
      && r.0.transactions == store.transactions + [r.1]
      && r.1.fromUserId == "system" && r.1.toUserId == userId && r.1.amount == amount
      && r.1.kind == TransactionKind.Deposit && r.1.status == Completed && r.1.description == "Depósito na conta"
  {
    var (prepared, w) := GetWallet(store, userId, walletId, now);
    var i := Slot(store.wallets, userId);
    TotalUpdate(prepared.wallets, i, Credited(w, amount, now));
    var tx := Transaction(transactionId, "system", userId, amount, "Depósito na conta",
                          TransactionKind.Deposit, Completed, None, None, None, now, now);
    (WalletStore(prepared.wallets[i := Credited(w, amount, now)], prepared.transactions + [tx]), tx)
  }

  /** `withdraw`: refuses an amount above the balance, keeping only the
      wallet its lookup created; otherwise debits it and logs a completed
      withdrawal to `system`. */
  function Withdraw(store: WalletStore, userId: string, amount: Cents, walletId: string, transactionId: string, now: Timestamp): (r: (WalletStore, Result<Transaction, WalletError>))
    ensures var prepared := GetWallet(store, userId, walletId, now).0;
      var i := Slot(store.wallets, userId);
      && (r.1.Failure? <==> prepared.wallets[i].balance < amount)
      && (r.1.Failure? ==> r.0 == prepared && r.1.error == InsufficientBalance)
      && (r.1.Success? ==>
            && |r.0.wallets| == |prepared.wallets|
            && r.0.wallets[i].balance == prepared.wallets[i].balance - amount
            && (forall k :: 0 <= k < |r.0.wallets| && k != i ==> r.0.wallets[k] == prepared.wallets[k])
            && Total(r.0.wallets) == Total(prepared.wallets) - amount
            && r.0.transactions == store.transactions + [r.1.value]
            && r.1.value.fromUserId == userId && r.1.value.toUserId == "system" && r.1.value.amount == amount
            && r.1.value.kind == Withdrawal && r.1.value.status == Completed
            && r.1.value.description == "Saque da conta")
  {
    var (prepared, w) := GetWallet(store, userId, walletId, now);
    var i := Slot(store.wallets, userId);
    if w.balance < amount then (prepared, Failure(InsufficientBalance))
    else
      TotalUpdate(prepared.wallets, i, Credited(w, -amount, now));
      var tx := Transaction(transactionId, userId, "system", amount, "Saque da conta",
                            Withdrawal, Completed, None, None, None, now, now);
      (WalletStore(prepared.wallets[i := Credited(w, -amount, now)], prepared.transactions + [tx]), Success(tx))
  }

  // ---------------------------------------------------------------------------
  // The store invariant: one wallet per user, no negative balance

  predicate Sound(store: WalletStore)
  {
    && (forall i, j :: 0 <= i < j < |store.wallets| ==> store.wallets[i].userId != store.wallets[j].userId)
    && (forall i :: 0 <= i < |store.wallets| ==> store.wallets[i].balance >= 0)
  }

  lemma GetWalletSound(store: WalletStore, userId: string, id: string, now: Timestamp)
    requires Sound(store)
    ensures Sound(GetWallet(store, userId, id, now).0)
  {
  }

  lemma PreparedSound(store: WalletStore, request: TransferRequest, fromUserId: string, env: TransferEnv)
    requires Sound(store)
    ensures Sound(Prepared(store, request, fromUserId, env))
  {
    var store1 := GetWallet(store, fromUserId, env.fromWalletId, env.now).0;
    GetWalletSound(store, fromUserId, env.fromWalletId, env.now);
    GetWalletSound(store1, request.toUserId, env.toWalletId, env.now);
  }

  /** With a non-negative amount, no operation overdraws a wallet or gives a
      user a second one. */
  lemma TransferSound(store: WalletStore, request: TransferRequest, fromUserId: string, env: TransferEnv)
    requires ValidEnv(env) && Sound(store) && request.amount >= 0
    ensures Sound(DoTransfer(store, request, fromUserId, env).0)
  {
    PreparedSound(store, request, fromUserId, env);
    if DoTransfer(store, request, fromUserId, env).1.Success? {
      TransferMovesAmount(store, request, fromUserId, env);
    }
  }

  lemma DepositSound(store: WalletStore, userId: string, amount: Cents, walletId: string, transactionId: string, now: Timestamp)
    requires Sound(store) && amount >= 0
    ensures Sound(Deposit(store, userId, amount, walletId, transactionId, now).0)
  {
    GetWalletSound(store, userId, walletId, now);
  }

  lemma WithdrawSound(store: WalletStore, userId: string, amount: Cents, walletId: string, transactionId: string, now: Timestamp)
    requires Sound(store) && amount >= 0
    ensures Sound(Withdraw(store, userId, amount, walletId, transactionId, now).0)
  {
    GetWalletSound(store, userId, walletId, now);
  }

  // ---------------------------------------------------------------------------
  // History

  predicate Involves(t: Transaction, userId: string)
  {
    t.fromUserId == userId || t.toUserId == userId
  }

  predicate NewestFirst(s: seq<Transaction>)
  {
    forall i, j :: 0 <= i < j < |s| ==> s[i].createdAt >= s[j].createdAt
  }

  /** Prepending an element at least as new as the head keeps the order. */
  lemma PrependNewest(t: Transaction, s: seq<Transaction>)
    requires NewestFirst(s)
    requires |s| > 0 ==> s[0].createdAt <= t.createdAt
    ensures NewestFirst([t] + s)
  {
    var r := [t] + s;
    forall i, j | 0 <= i < j < |r|
      ensures r[i].createdAt >= r[j].createdAt
    {
      if i == 0 && j > 1 {
        assert s[0].createdAt >= s[j - 1].createdAt;
      }
    }
  }

  /** Places `t` before the first element that is not newer, so it stays
      ahead of equally old elements that followed it. */
  function Insert(t: Transaction, s: seq<Transaction>): (r: seq<Transaction>)
    requires NewestFirst(s)
    ensures NewestFirst(r)
    ensures multiset(r) == multiset(s) + multiset{t}
    ensures |r| > 0 && (r[0] == t || (|s| > 0 && r[0] == s[0]))
  {
    if |s| == 0 || s[0].createdAt <= t.createdAt then
      PrependNewest(t, s);
      [t] + s
    else
      var rest := Insert(t, s[1..]);
      assert s == [s[0]] + s[1..];
      PrependNewest(s[0], rest);
      [s[0]] + rest
  }

  /** The stable newest-first sort of `Array.prototype.sort` with the
      comparator `b.createdAt - a.createdAt`. */
  function SortNewestFirst(s: seq<Transaction>): (r: seq<Transaction>)
    ensures NewestFirst(r)
    ensures multiset(r) == multiset(s)
  {
    if |s| == 0 then []
    else
      assert s == [s[0]] + s[1..];
      Insert(s[0], SortNewestFirst(s[1..]))
  }

  /** Where `slice(0, limit)` stops: a negative limit counts back from the end. */
  function SliceEnd(limit: int, n: nat): (r: nat)
    ensures r <= n
    ensures 0 <= limit ==> r == if limit < n then limit else n
    ensures limit < 0 ==> r == if n + limit > 0 then n + limit else 0
  {
    if limit < 0 then (if n + limit > 0 then n + limit else 0)
    else if limit < n then limit
    else n
  }

  /** The user's transactions, sent or received, in log order. */
  function UserTransactions(store: WalletStore, userId: string): (r: seq<Transaction>)
    ensures forall i :: 0 <= i < |r| ==> Involves(r[i], userId) && r[i] in store.transactions
    ensures forall i :: 0 <= i < |store.transactions| && Involves(store.transactions[i], userId)
              ==> store.transactions[i] in r
  {
    Filter(store.transactions, (t: Transaction) => Involves(t, userId))
  }

  /** `getTransactions`: the user's transactions, newest first, cut at
      `limit`. With a non-negative limit the result is the newest
      `min(limit, n)` of the user's `n` transactions: nothing left out is
      newer than anything kept. */
  function GetTransactions(store: WalletStore, userId: string, limit: int): (r: seq<Transaction>)
    ensures NewestFirst(r)
    ensures forall i :: 0 <= i < |r| ==> Involves(r[i], userId) && r[i] in store.transactions
    ensures multiset(r) <= multiset(UserTransactions(store, userId))
    ensures 0 <= limit ==> |r| == Min(limit, |UserTransactions(store, userId)|)
    ensures |r| == SliceEnd(limit, |UserTransactions(store, userId)|)
    ensures forall t :: t in multiset(UserTransactions(store, userId)) - multiset(r) ==>
              forall i :: 0 <= i < |r| ==> t.createdAt <= r[i].createdAt
  {
    var mine := UserTransactions(store, userId);
    var e := SliceEnd(limit, |mine|);
    NewestCut(mine, e);
    HistoryFacts(mine, SortNewestFirst(mine)[..e], store, userId);
    SortNewestFirst(mine)[..e]
  }

  /** A sub-multiset of the user's transactions involves the user and comes
      from the log. */
  lemma HistoryFacts(mine: seq<Transaction>, r: seq<Transaction>, store: WalletStore, userId: string)
    requires mine == UserTransactions(store, userId)
    requires multiset(r) <= multiset(mine)
    ensures forall i :: 0 <= i < |r| ==> Involves(r[i], userId) && r[i] in store.transactions
  {
    forall i | 0 <= i < |r|
      ensures Involves(r[i], userId) && r[i] in store.transactions
    {
      assert r[i] in multiset(r);
      assert r[i] in mine;
    }
  }

  /** The newest `e` of some transactions: a newest-first sub-multiset of
      them, and nothing left out is newer than anything kept. */
  lemma NewestCut(s: seq<Transaction>, e: nat)
    requires e <= |s|
    ensures |SortNewestFirst(s)| == |s|
    ensures var r := SortNewestFirst(s)[..e];
      && NewestFirst(r)
      && multiset(r) <= multiset(s)
      && forall t :: t in multiset(s) - multiset(r) ==> forall i :: 0 <= i < e ==> t.createdAt <= r[i].createdAt
  {
    var sorted := SortNewestFirst(s);
    assert |sorted| == |s| by {
      assert |multiset(sorted)| == |multiset(s)|;
    }
    var r := sorted[..e];
    assert sorted == r + sorted[e..];
    assert multiset(s) == multiset(r) + multiset(sorted[e..]);
    forall t | t in multiset(s) - multiset(r)
      ensures forall i :: 0 <= i < e ==> t.createdAt <= r[i].createdAt
    {
      assert t in multiset(sorted[e..]);
      var j :| 0 <= j < |sorted[e..]| && sorted[e..][j] == t;
      assert sorted[e + j] == t;
    }
  }

  /** The page's call with the default limit of 10. */
  const DefaultLimit := 10

  function RecentTransactions(store: WalletStore, userId: string): (r: seq<Transaction>)
    ensures NewestFirst(r)
    ensures |r| == Min(DefaultLimit, |UserTransactions(store, userId)|)
    ensures forall t :: t in multiset(UserTransactions(store, userId)) - multiset(r) ==>
              forall i :: 0 <= i < |r| ==> t.createdAt <= r[i].createdAt
  {
    GetTransactions(store, userId, DefaultLimit)
  }

  /** Within the limit, the history holds every one of the user's
      transactions, each as often as in the log. */
  lemma GetTransactionsComplete(store: WalletStore, userId: string, limit: int)
    requires limit >= |store.transactions|
    ensures multiset(GetTransactions(store, userId, limit)) == multiset(UserTransactions(store, userId))
  {
    var mine := UserTransactions(store, userId);
    var sorted := SortNewestFirst(mine);
    assert |sorted| == |mine| by {
      assert |multiset(sorted)| == |multiset(mine)|;
    }
    assert sorted[..|sorted|] == sorted;
  }
}

=== FILE: wrappers.dfy ===
/** Failure-compatible return types used where the source throws or returns an
    optional value. */
module Wrappers {

  /** A present or absent value, the model of an optional (`?`) field. */
  datatype Option<+T> = None | Some(value: T)

  /** The outcome of an operation that the source ends with `throw new Error(...)`. */
  datatype Result<+T, +E> = Success(value: T) | Failure(error: E)
}
